=== FILE: README.md ===
# A verified model of a first-fit heap allocator

This project models the allocator engine of `src/mem.c`. The allocator is a
first-fit heap whose block headers form a singly linked chain over memory
mapped from the operating system. The model covers:

- the page arithmetic that sizes regions;
- the header written over a fresh region (`block_init`, `alloc_region`, `heap_init`);
- splitting an oversized free block (`block_splittable`, `split_if_too_big`);
- forward coalescing (`block_after`, `blocks_continuous`, `mergeable`, `try_merge_with_next`);
- the first-fit search that merges as it walks (`find_good_or_last`);
- allocation with heap growth (`try_memalloc_existing`, `grow_heap`, `memalloc`, `_malloc`);
- release (`block_get_header`, `_free`).

The heap is an immutable sequence of blocks `Block(addr, cap, free)` in chain
order. The `next` of a header is the element after it; the last has NULL. A
header takes `H` bytes, so a block spans `[addr, addr + H + cap)`. Every
operation is a pure function from a chain to a new chain and a result.

Some inputs come from outside the allocator:

- `H`, the page size and `REGION_MIN_SIZE` are symbolic constants (module `Layout`), so every property holds for any positive header size and page size.
- The outcome of the two `mmap` calls in `alloc_region` is a parameter: fail, land at the preferred address, or land elsewhere.
- Whether the start block's `next` points at itself is a boolean input. This one-node cycle is the only corruption the search detects.

Modules, in dependency order:

| module | file | models |
|---|---|---|
| `Layout` | layout.dfy | constants, `pages_count`, `round_pages`, `region_actual_size` |
| `Blocks` | blocks.dfy | blocks, `block_init`, `block_after`, footprint, allocated blocks, overlap |
| `Merge` | merge.dfy | `blocks_continuous`, `mergeable`, `try_merge_with_next`, the merge loop |
| `Split` | split.dfy | `block_splittable`, `split_if_too_big`, split/merge inverses |
| `Search` | search.dfy | `find_good_or_last` |
| `Regions` | region.dfy | `alloc_region`, `heap_init` |
| `Alloc` | alloc.dfy | `try_memalloc_existing`, `grow_heap`, `memalloc`, `_malloc`, `block_get_header`, `_free` |
| `Overflow` | overflow.dfy | region sizing and `memalloc` in 64-bit `size_t` arithmetic |
| `Scenarios` | scenarios.dfy | the situations of `src/tests.c`, and one left by forward-only merging |

Four predicates recur in the contracts:

- `Total` is the footprint (header plus capacity) summed over the chain.
- `Used` is the subsequence of allocated blocks.
- `SameMemory(c, r)` says the footprint and the heap end are the same, and `r` has no overlapping blocks where `c` had none.
- `Coalescing(c, r)` adds that the allocated blocks are the same and `r` has no more blocks than `c`.

Two consequences of the code are easy to miss:

- A split gives the block cut off a capacity of `old − query − H`, not `old − query`. `split_if_too_big` passes `old − query` to `block_init` as the new block's size (src/mem.c:106-110), and that size includes the header. `Split.Cut` gives the remainder this capacity.
- `_free` merges forward only (src/mem.c:309). Freeing a block behind a free contiguous neighbour leaves two free contiguous neighbours; `Scenarios.FreeLeavesBackwardPair` exhibits one. A later search merges the pair only if it starts at or before the first block of the pair and finds no fit in an earlier block.

## Model

| member | source | states |
|---|---|---|
| Layout.PagesCount | src/mem.c:19 | the page count is the fewest pages covering `mem`: `n` pages hold `mem` bytes and `n − 1` do not |
| Layout.RoundPages | src/mem.c:20 | the rounded size is a page multiple, at least `mem`, and less than one page more |
| Layout.RoundPagesIsLeast | src/mem.c:19-20 | no page multiple that covers `mem` is smaller than `round_pages(mem)` |
| Layout.RegionActualSize | src/mem.c:30 | a region is at least the request rounded up to whole pages and at least REGION_MIN_SIZE; it is either REGION_MIN_SIZE or a page multiple less than one page above the request |
| Blocks.BlockInit | src/mem.c:22-28 | a fresh header is free, sits at the given address, and its block occupies exactly the given size |
| Blocks.UsedSetFreeCount | src/mem.c:216 | marking a free block used adds exactly one allocated block; marking a used block free removes one |
| Regions.Place | src/mem.c:50-60 | a mapping fails exactly when both calls fail; `extends` holds exactly when the region landed at the preferred address |
| Regions.AllocRegion | src/mem.c:47-64 | the region holds a block of capacity `query` plus its header, is at least that size rounded up to whole pages and at least REGION_MIN_SIZE, and is whole pages unless it is the minimum; NULL exactly when mapping fails |
| Regions.AllocRegionIsSmallest | src/mem.c:30 | no page multiple of at least REGION_MIN_SIZE that holds the block is smaller than the region mapped |
| Regions.RegionBlock | src/mem.c:61 | the region's one block is free, starts at the region, and spans the whole region |
| Regions.HeapInit | src/mem.c:73-78 | the initial heap is one free block of capacity at least `initial`, placed at the start address when the mapping lands there; NULL exactly when mapping fails |
| Split.SplitIfTooBig | src/mem.c:90-116 | splits exactly when the block is free and `query + H + 24 <= cap`; the block keeps `query` bytes and its flag; a free remainder follows, contiguous and of at least 24 bytes; footprint, allocations and non-overlap are kept; otherwise nothing changes |
| Split.Cut | src/mem.c:105-114 | the chain gains one block: the cut block keeps `query` bytes and its address and flag, a free block of `cap − query − H` bytes starts right after it, and every other block is the same, those after moved up by one |
| Split.CutKeepsMemory | src/mem.c:105-114 | the two halves of a split occupy exactly the old block's footprint, so total size, heap end and allocations are unchanged |
| Split.CutKeepsDisjoint | src/mem.c:105-114 | a split creates no overlap in a chain that had none |
| Split.SplitThenMergeRestores | src/mem.c:157-163 | merging right after a split gives back the chain before the split |
| Split.MergeThenSplitRestores | src/mem.c:100-116 | splitting a merged block at the old boundary gives back the chain before the merge, when the absorbed block holds at least BLOCK_MIN_CAPACITY bytes |
| Merge.TryMergeWithNext | src/mem.c:157-163 | merges exactly when the block and its successor are free and contiguous; the merged block keeps its address and gains the successor's whole footprint; the successor leaves the chain; otherwise nothing changes |
| Merge.Absorb | src/mem.c:160-161 | the chain after a merge: earlier and later blocks are the same, the merged block's capacity is `cap + H + next.cap` |
| Merge.AbsorbIsCoalescing | src/mem.c:160-161 | a merge keeps footprint, heap end, allocations and non-overlap, and the merged block ends where the successor ended |
| Merge.MergeForward | src/mem.c:187 | repeated merging grows the block over the free contiguous run after it (`ForwardMerged`): every absorbed block was free and began where the one before it ended, the block keeps its address and flag and gains each absorbed footprint, it ends where the run ended and is settled, and every block before or after the run is the same block; an already settled block changes nothing |
| Merge.MergeForwardMerges | src/mem.c:187 | the repeated merging is a series of single merges, each of a free block with its free contiguous successor (`Merges`) |
| Merge.MergesIsCoalescing | src/mem.c:157-163 | any series of single merges keeps footprint, heap end, allocations and non-overlap |
| Merge.MergesTransitive | src/mem.c:157-163 | two series of merges one after the other are one series of merges |
| Merge.MergesWithoutPairIsIdentity | src/mem.c:159 | a chain without a free contiguous pair cannot be changed by merging |
| Merge.RunEnd | src/mem.c:161 | a block grown over a free contiguous run ends where the last block of the run ended, and has not shrunk |
| Merge.ForwardMergedStep | src/mem.c:157-163 | one more merge in front of a forward merge is a forward merge over a run one block longer |
| Merge.ForwardMergedNothing | src/mem.c:159 | a forward merge that absorbed no block leaves the chain as it was |
| Merge.MergeForwardKeepsFit | src/mem.c:187-189 | merging never destroys a free block large enough for a request |
| Search.Settle | src/mem.c:186-187 | a free block absorbs the free contiguous run after it and is then settled; a used block changes nothing; the blocks before it and after the run are the same, and the chain is the old one after a series of single merges |
| Search.Walk | src/mem.c:183-196 | the walk leaves the blocks before the start untouched, and the chain it leaves is the old one after a series of single merges of free contiguous pairs; it returns the first block from the start that fits as merged, or else the last block, which does not fit; every free block it passed or stopped at is settled, so it was merged with all it could absorb, and after a found block the chain is the old one's tail, unchanged |
| Search.WalkStep | src/mem.c:186-193 | moving on from a block that does not fit keeps what the walk from the next block promises: untouched prefix, merges only, no fit passed over, every free block passed settled, and an unchanged tail after a found block |
| Search.WalkSettles | src/mem.c:186-187 | a block settled before the walk moves on stays settled, because its successor keeps its address and flag; the tail kept by the rest of the walk is a tail of the chain before this step |
| Search.WalkFindsExistingFit | src/mem.c:183-196 | if a block fitted before the walk, the walk finds one |
| Search.FindGoodOrLast | src/mem.c:179-197 | corrupted exactly for a NULL start or a start linked to itself, with nothing changed; otherwise the chain left is the old one after a series of single merges, found is free, big enough and the first fit from the start, and reached-end is the tail, which does not fit; every free block from the start to the one returned is settled, and the blocks after a found block are the old chain's last blocks |
| Search.FindIsFirstFit | src/mem.c:179-197 | the search reaches the end exactly when no block from the start on fits in the chain it leaves |
| Search.LastStopMeansNoFit | src/mem.c:188-196 | a stop after passing only misfits, at a fit or at the last block, is a stop at the last block without a fit exactly when no block from the start fits |
| Search.SearchWithoutPairKeepsChain | src/mem.c:183-196 | in a chain without a free contiguous pair the search merges nothing, and it reaches the end exactly when no block from the start fits |
| Search.WalkKeepsFresh | src/mem.c:187 | memory that overlaps no block before the walk overlaps none after it |
| Alloc.TryMemallocExisting | src/mem.c:207-219 | the result is the search's; a found block is the first fit from the start, is marked used and holds `query`, cut to `query` unless the rest is too small to split; freeing it again gives the original allocations; a failed search is returned as is |
| Alloc.TryMemallocAllocates | src/mem.c:213-216 | a found block of the chain the search left keeps its address and is marked used; when splittable it keeps exactly `query` bytes, followed by a free block of `cap − query − H` bytes at `addr + H + query` and then the old successors; when not, it is only marked used, nothing else changing |
| Alloc.Allocate | src/mem.c:214-216 | the found block keeps its address and is marked used; when `block_splittable` holds it keeps exactly `query` bytes and is followed by a free block of `cap − query − H` bytes at `addr + H + query`, then the old successors; when not, the chain only has the block marked used (`AllocatedFrom`); footprint is kept and freeing the block restores the allocated blocks |
| Alloc.AllocateKeepsMisses | src/mem.c:214-216 | the blocks between the start and the allocated one that did not fit still do not fit |
| Alloc.AllocateKeepsFresh | src/mem.c:214-216 | memory that overlaps no block before the allocation overlaps none after it |
| Alloc.TryMemallocAtTail | src/mem.c:192-196 | started at the last block, the search takes it if it fits and otherwise reports the end with nothing changed |
| Alloc.Attach | src/mem.c:238-247 | the new region becomes the tail; the last block absorbs it exactly when both are free and contiguous; allocations are unchanged and the footprint grows by the region's size |
| Alloc.AttachKeepsDisjoint | src/mem.c:238 | a region mapped apart from every block keeps the chain free of overlaps |
| Alloc.GrowHeap | src/mem.c:228-248 | NULL exactly for a NULL last block or a failed mapping, with nothing changed; otherwise the returned block is the free tail, big enough for `query`; it is the old last block, keeping its address and gaining the region's size, exactly when that block was free and the region landed after it, and otherwise the chain is the old one followed by the region's own block; the footprint grows by the region's size |
| Alloc.Memalloc | src/mem.c:257-277 | the request is raised to 24; a returned block is used and holds the raised request; freeing it gives back the allocations before the call; a corrupted start gives NULL with nothing changed; with a start block, NULL only when the mapping fails; when a block from the start already fits, a block is returned, it is the first fit after merging, and the footprint is unchanged; whenever the search finds a block, that block is the one returned and the footprint is unchanged; a failed mapping never changes the footprint |
| Alloc.MemallocServesFound | src/mem.c:262-267 | when the search finds a block, memalloc returns that block of the chain the search left, cut or only marked used as `AllocatedFrom` says, with the same memory |
| Alloc.MemallocGrowsAtEnd | src/mem.c:262-274 | when the search reaches the end and the mapping succeeds, the heap grows by exactly `region_actual_size(size_from_capacity(query))`; the blocks before the old last one are unchanged; the block returned is the old last block, keeping its address, exactly when it was free and the region landed right after it, and otherwise the region's own block behind the unchanged old last block (`GrewAndServed`) |
| Alloc.GrowAndRetry | src/mem.c:270-274 | a failed mapping gives NULL with nothing changed; otherwise the retry after growth returns a used block holding the request, freeing it gives back the allocations before, the heap is larger by exactly the region, and the block is placed as `GrewAndServed` says |
| Alloc.GrowthServesShape | src/mem.c:271-273 | the retry from the block grow_heap returned takes exactly that block: the old last block when it absorbed the region, otherwise the region's block |
| Alloc.GrowAndRetryKeepsDisjoint | src/mem.c:271-273 | growth and retry create no overlap when the system maps apart from the heap |
| Alloc.GrowthServes | src/mem.c:271-273 | after a growth the retry from the new tail takes it: used, big enough, last or next-to-last, and the heap is larger by exactly the region mapped |
| Alloc.MemallocKeepsDisjoint | src/mem.c:257-277 | if the system maps new regions apart from the heap, allocation creates no overlap |
| Alloc.MemallocAllocatesOne | src/mem.c:215-216 | a successful allocation adds exactly one allocated block |
| Alloc.Malloc | src/mem.c:284-288 | a returned pointer is the contents of a used block holding the request; NULL only for a corrupted start or when no block fits and the mapping fails |
| Alloc.BlockGetHeader | src/mem.c:295-297 | the header sits exactly H bytes before the contents address |
| Alloc.GetHeaderInvertsContents | src/mem.c:295-297 | stepping back H bytes from a block's contents gives its header |
| Alloc.HeaderIndex | src/mem.c:305 | the block found for a header address has that address, and none is found exactly when no block has it |
| Alloc.HeaderIndexOfDisjoint | src/mem.c:305 | in a chain without overlaps a header address names exactly one block |
| Alloc.FreeAt | src/mem.c:306-309 | the freed block keeps its address, is free and settled; earlier blocks are untouched; it absorbed exactly a run of free blocks each beginning where the one before ended, ends where the run ended, and every later block is the same block moved down (`FreedRun`); allocations are those of the chain with the block marked free |
| Alloc.ForwardMergedAfterFree | src/mem.c:306-309 | a forward merge after marking block `k` free, read against the chain before: the absorbed blocks were free and contiguous, and the blocks after the run are unchanged |
| Alloc.Free | src/mem.c:303-310 | freeing NULL changes nothing; otherwise the block whose contents are `mem` is freed and merged forward over a free contiguous run only, the blocks before and after the run are unchanged, and footprint and heap end are kept |
| Alloc.FreeStopsAtGap | src/mem.c:306-309 | a freed block whose successor does not begin where it ends absorbs nothing, even when that successor is free |
| Alloc.FreeOfHandedOut | src/mem.c:295-309 | in a chain without overlaps, `_free` of a block's contents finds that block and frees exactly it |
| Alloc.FreeReleasesOne | src/mem.c:306 | freeing an allocated block removes exactly one allocated block |
| Alloc.FreeUndoesTryMemalloc | src/mem.c:207-219 | freeing the block just allocated gives back exactly the chain the search left |
| Alloc.MallocFreeRoundTrip | src/mem.c:284-310 | `_free` of the pointer `_malloc` returned finds its block and restores the allocated blocks, if new regions are mapped apart from the heap |
| Overflow.SizeFromCapacity64 | src/mem.c:48 | `size_from_capacity` in `size_t` agrees with exact arithmetic below 2^64 and is 2^64 less above |
| Overflow.RoundPages64 | src/mem.c:20 | `round_pages` in `size_t` agrees with exact arithmetic when the result fits, and rounds 0 to 0 |
| Overflow.RegionActualSize64 | src/mem.c:30 | the region size from a `size_t` page rounding is at least REGION_MIN_SIZE and equals the exact one whenever the rounding does not wrap |
| Overflow.AllocRegion64 | src/mem.c:47-64 | the region sized in `size_t` agrees with the exact one whenever the request plus a header and a page fits |
| Overflow.GrowHeap64 | src/mem.c:228-248 | growth with `size_t` region sizing returns NULL exactly for a NULL last block or a failed mapping, with nothing changed; otherwise the returned block is the free tail and allocations are unchanged; it equals the exact growth whenever the request plus a header and a page fits |
| Overflow.Memalloc64 | src/mem.c:257-277 | the returned block is in the chain; a corrupted start gives NULL with nothing changed |
| Overflow.Memalloc64AgreesBelowWrap | src/mem.c:257-277 | below the wrap the `size_t` memalloc returns exactly what the exact one returns |
| Overflow.HugeRequestReturnsFreeBlock | src/mem.c:273 | a request of 2^64 − H bytes makes memalloc return a free block smaller than the request |
| Scenarios.UsualAllocAndFree | src/tests.c:40-58 | a 4096-byte heap serves 2048 bytes without growing, and the free afterwards leaves nothing allocated |
| Scenarios.FreeAbsorbsFreeSuccessor | src/tests.c:119-121 | freeing a block whose free successor is contiguous leaves one block spanning both |
| Scenarios.GrowthMergesIntoFirstBlock | src/tests.c:132-156 | when growth lands after a too-small free first block, the first block absorbs it and is handed out, big enough |
| Scenarios.GrowthBehindBarrierKeepsFirstBlock | src/tests.c:162-195 | when growth lands elsewhere, the first block stays free and untouched and the next block is handed out, big enough |
| Scenarios.SearchMergesFreePair | src/mem.c:185-189 | two free contiguous blocks too small alone are merged by the search, and the merged block is the one found |
| Scenarios.SearchPrefersEarlierMergedPair | src/mem.c:185-189 | a later block that fits as it stands does not win over an earlier free pair that fits once merged |
| Scenarios.GapPairMakesHeapGrow | src/mem.c:262-273 | two free blocks too small and separated by a gap are not merged, so memalloc grows the heap by a whole region |
| Scenarios.UnsplittableBlockHandedOutWhole | src/mem.c:207-219 | a free block too small to split is handed out whole, only marked used |
| Scenarios.FreeLeavesBackwardPair | src/mem.c:303-310 | freeing a block behind a free contiguous neighbour leaves two free contiguous neighbours |

## Left out

- `mmap`, `MAP_FIXED_NOREPLACE` and `getpagesize` are system calls. The mapping outcome is a parameter (`Regions.MapResult`) and the page size a constant.
- `mem_internals.h` is not part of this model. `H` (`offsetof(struct block_header, contents)`), the page size and `REGION_MIN_SIZE` are symbolic. The 64-bit lemmas assume `H <= REGION_MIN_SIZE`.
- Struct layout and pointer casts are abstracted to integer addresses. A pointer passed to `_free` that is not the contents of a block is undefined in the source; `Alloc.Free` requires one that is.
- `size_t` wrap-around is modelled only in `Overflow`. Elsewhere sizes are unbounded, which is the corrected behaviour.
- Overflow.Memalloc64: the wrap of `query + H + BLOCK_MIN_CAPACITY` in `block_splittable` (src/mem.c:91) is not modelled, because it needs a free block of capacity near 2^64.
- The `HEAP_START` global is replaced by the chain's first block. `Alloc.Malloc` requires a non-empty chain. The case where `heap_init` mapped elsewhere and `_malloc` reads whatever lies at `HEAP_START` is not modelled.
- Cycles in the chain cannot be written as a sequence. The self-link of the start block is a flag. After growth the flag is false, because the block returned is the tail and its `next` is NULL.
- No region is ever unmapped by the allocator. Debug printing, the test program of `src/tests.c` and thread safety are out of scope.
- Non-overlap after growth depends on the kernel never mapping over existing memory. It is a hypothesis (`Alloc.MappingFresh`) of the lemmas that state it, not a precondition of the operations.
- Alloc.HeaderIndex: returns the first block with the address, which is the only one when blocks do not overlap (`Alloc.HeaderIndexOfDisjoint`).
- Alloc.Malloc: states the pointer is the contents of some used block holding the request, not which index; `Scenarios` pins the index in the situations of `src/tests.c`.

## Findings

| source | as written | input that shows it | evidently intended | confidence | as-written member | corrected member |
|---|---|---|---|---|---|---|
| src/mem.c:48, src/mem.c:273 | the region size `region_actual_size(size_from_capacity(query))` is computed in `size_t` and wraps; after growing, `memalloc` returns the retry's `.block` even when the retry did not find a block | `_malloc(2^64 − H)` on a heap whose blocks are all in use, with mapping succeeding: the region is REGION_MIN_SIZE bytes, the retry reaches the end at its free block, and that free block of REGION_MIN_SIZE − H bytes is returned as the allocation (`Overflow.HugeRequestReturnsFreeBlock`) | a returned block is used and holds the request, or NULL is returned | not executed | Overflow.Memalloc64 | Alloc.Memalloc |

=== FILE: alloc.dfy ===
/**
 * Allocation and release (src/mem.c, lines 199-310): first fit over the
 * existing chain, growing the heap by a fresh region when the walk reaches
 * the end, and freeing with forward coalescing.
 *
 * The heap is the chain that starts at HEAP_START, so _malloc starts its
 * search at the first block of the chain. Whether the start block's `next`
 * points back at itself, the one corruption the search detects, is an
 * input, and so is the outcome of the mapping a growth asks for.
 */
module Alloc {
  import opened Layout
  import opened Blocks
  import opened Merge
  import opened Split
  import opened Search
  import opened Regions

  /**
   * try_memalloc_existing: search from `from`; a block found is cut down to
   * `query` bytes when the rest can stand as a block of its own, and marked
   * used. A search that finds nothing is handed back as it is.
   */
  function TryMemallocExisting(c: seq<Block>, from: Cursor, startLinksToItself: bool, query: nat): (s: Outcome)
    requires from.At? ==> from.i < |c|
    ensures s.result.Corrupted? <==> from.Null? || startLinksToItself
    ensures s.result.Corrupted? ==> s.chain == c && s.result.start == from
    ensures !s.result.Corrupted? ==> from.i <= s.result.i < |s.chain|
    ensures s.result.ReachedEnd? ==> s.result.i == |s.chain| - 1 && !Fits(s.chain[s.result.i], query)
    ensures s.result.ReachedEnd? ==> Coalescing(c, s.chain)
    ensures from.At? && !startLinksToItself && HasFit(c, from.i, query) ==> s.result.Found?
    ensures s.result.Found? ==> !s.chain[s.result.i].free && s.chain[s.result.i].cap >= query
    ensures s.result.Found? ==> s.chain[s.result.i].cap == query
                                || s.chain[s.result.i].cap < query + H + BLOCK_MIN_CAPACITY
    ensures s.result.Found? ==> Used(SetFree(s.chain, s.result.i, true)) == Used(c)
    ensures SameMemory(c, s.chain)
    ensures s.result == FindGoodOrLast(c, from, startLinksToItself, query).result
    ensures !s.result.Found? ==> s == FindGoodOrLast(c, from, startLinksToItself, query)
    ensures s.result.Found? ==> forall k | from.i <= k < s.result.i :: !Fits(s.chain[k], query)
  {
    var f := FindGoodOrLast(c, from, startLinksToItself, query);
    if !f.result.Found? then
      f
    else
      var k := f.result.i;
      var r := Allocate(f.chain, k, query);
      AllocateKeepsMisses(f.chain, from.i, k, query);
      SameMemoryTransitive(c, f.chain, r);
      Outcome(r, f.result)
  }

  /**
   * The found block `k` is cut down to `query` bytes when the rest can
   * stand as a block, then marked used: it holds the request, the blocks
   * before it are as they were, and freeing it again restores the
   * allocated blocks.
   */
  function Allocate(c: seq<Block>, k: nat, query: nat): (r: seq<Block>)
    requires k < |c| && Fits(c[k], query)
    ensures AllocatedFrom(c, k, query, r)
    ensures k < |r| && !r[k].free && r[k].cap >= query
    ensures r[k].cap == query || r[k].cap < query + H + BLOCK_MIN_CAPACITY
    ensures forall m | 0 <= m < k :: r[m] == c[m]
    ensures Used(SetFree(r, k, true)) == Used(c)
    ensures SameMemory(c, r)
  {
    var sp := SplitIfTooBig(c, At(k), query);
    SetFreeSameMemory(sp.chain, k, false);
    SetFreeRestores(sp.chain, k, false);
    SameMemoryTransitive(c, sp.chain, SetFree(sp.chain, k, false));
    SetFree(sp.chain, k, false)
  }

  /**
   * `r` is `c` after block `k` was handed out for `query` bytes: the block
   * keeps its address and is used; when it is splittable it keeps exactly
   * `query` bytes and a free block of the rest follows it, every other block
   * staying as it was; otherwise it is only marked used.
   */
  ghost predicate AllocatedFrom(c: seq<Block>, k: nat, query: nat, r: seq<Block>)
  {
    && k < |c| && k < |r|
    && r[k].addr == c[k].addr && !r[k].free
    && (BlockSplittable(c[k], query) ==>
          && |r| == |c| + 1 && r[k].cap == query
          && r[k + 1] == Block(c[k].addr + H + query, c[k].cap - query - H, true)
          && (forall m | 0 <= m < k :: r[m] == c[m])
          && (forall m | k + 1 < m < |r| :: r[m] == c[m - 1]))
    && (!BlockSplittable(c[k], query) ==> r == SetFree(c, k, false))
  }

  /**
   * try_memalloc_existing hands out the found block of the chain the search
   * left, cut or only marked used as `AllocatedFrom` says.
   */
  lemma TryMemallocAllocates(c: seq<Block>, from: Cursor, startLinksToItself: bool, query: nat)
    requires from.At? ==> from.i < |c|
    ensures var s := TryMemallocExisting(c, from, startLinksToItself, query);
      s.result.Found? ==> AllocatedFrom(FindGoodOrLast(c, from, startLinksToItself, query).chain, s.result.i, query, s.chain)
  {
  }

  /** Blocks before the allocated one that did not fit still do not fit. */
  lemma AllocateKeepsMisses(c: seq<Block>, from: nat, k: nat, query: nat)
    requires from <= k < |c| && Fits(c[k], query)
    requires forall m | from <= m < k :: !Fits(c[m], query)
    ensures forall m | from <= m < k :: !Fits(Allocate(c, k, query)[m], query)
  {
    var r := Allocate(c, k, query);
    forall m | from <= m < k ensures !Fits(r[m], query) {
      assert r[m] == c[m];
    }
  }

  /** Started at the last block, try_memalloc_existing takes that block or reports the end with the chain unchanged. */
  lemma TryMemallocAtTail(c: seq<Block>, from: nat, query: nat)
    requires from + 1 == |c|
    ensures var s := TryMemallocExisting(c, At(from), false, query);
      && (Fits(c[from], query) ==> s.result == Found(from) && s.chain[from].addr == c[from].addr)
      && (Fits(c[from], query) ==> forall k | 0 <= k < from :: s.chain[k] == c[k])
      && (Fits(c[from], query) ==> |s.chain| <= from + 2)
      && (!Fits(c[from], query) ==> s == Outcome(c, ReachedEnd(from)))
  {
    WalkAtTail(c, from, query);
  }

  /** try_memalloc_existing never lets memory outside the chain overlap it. */
  lemma TryMemallocKeepsFresh(c: seq<Block>, from: Cursor, startLinksToItself: bool, query: nat, b: Block)
    requires from.At? ==> from.i < |c|
    requires Fresh(c, b)
    ensures Fresh(TryMemallocExisting(c, from, startLinksToItself, query).chain, b)
  {
    if from.At? && !startLinksToItself {
      var f := FindGoodOrLast(c, from, startLinksToItself, query);
      WalkKeepsFresh(c, from.i, query, b);
      if f.result.Found? {
        AllocateKeepsFresh(f.chain, f.result.i, query, b);
      }
    }
  }

  /** Cutting a block and marking it used lets no memory outside the chain overlap it. */
  lemma AllocateKeepsFresh(c: seq<Block>, k: nat, query: nat, b: Block)
    requires k < |c| && Fits(c[k], query) && Fresh(c, b)
    ensures Fresh(Allocate(c, k, query), b)
  {
    var sp := SplitIfTooBig(c, At(k), query);
    if sp.changed {
      CutKeepsFresh(c, k, query, b);
    }
    SetFreeKeepsFresh(sp.chain, k, false, b);
  }

  /** What grow_heap returns, with the chain it leaves. */
  datatype Grown = Grown(chain: seq<Block>, block: Cursor)

  /**
   * The part of grow_heap after a region is mapped: the region's block is
   * linked after the last block, which absorbs it when both are free and
   * the region begins exactly where the last block ends. The block
   * returned is the tail of the new chain and is free.
   */
  function Attach(c: seq<Block>, last: nat, r: Region): (g: Grown)
    requires last + 1 == |c| && H <= r.size
    ensures g.block.At? && g.block.i + 1 == |g.chain| && g.chain[g.block.i].free
    ensures last <= g.block.i
    ensures g.chain[..last] == c[..last]
    ensures g.block.i == last <==> Mergeable(c[last], RegionBlock(r))
    ensures g.block.i == last ==> g.chain[last].addr == c[last].addr
                                  && SizeFromCapacity(g.chain[last].cap) == SizeFromCapacity(c[last].cap) + r.size
    ensures g.block.i != last ==> g.block.i == |c| && g.chain == c + [RegionBlock(r)]
    ensures Used(g.chain) == Used(c)
    ensures Total(g.chain) == Total(c) + r.size
    ensures HeapEnd(g.chain) == r.addr + r.size
  {
    var b := RegionBlock(r);
    var linked := c + [b];
    UsedConcat(c, [b]);
    TotalConcat(c, [b]);
    var m := TryMergeWithNext(linked, last);
    if m.changed then
      assert m.chain[..last] == linked[..last];
      Grown(m.chain, At(last))
    else
      assert linked[..last] == c[..last];
      Grown(linked, At(|c|))
  }

  /** A region mapped apart from every block keeps the chain free of overlaps. */
  lemma AttachKeepsDisjoint(c: seq<Block>, last: nat, r: Region)
    requires last + 1 == |c| && H <= r.size
    requires Disjoint(c) && Fresh(c, RegionBlock(r))
    ensures Disjoint(Attach(c, last, r).chain)
  {
    var linked := c + [RegionBlock(r)];
    forall p, q | 0 <= p < q < |linked| ensures Apart(linked[p], linked[q]) {
      if q < |c| {
        assert Apart(c[p], c[q]);
      } else {
        assert Apart(c[p], RegionBlock(r));
      }
    }
  }

  /**
   * grow_heap: with no last block, or when mapping fails, nothing changes
   * and NULL comes back. Otherwise a region for `query` bytes is mapped
   * right after the last block if the system allows, and the block handed
   * back is the new free tail of the chain, big enough for `query`: the
   * last block itself when it was free and the region continues it, the
   * region's own block when not.
   */
  function GrowHeap(c: seq<Block>, last: Cursor, query: nat, os: MapResult): (g: Grown)
    requires last.At? ==> last.i + 1 == |c|
    ensures g.block.Null? <==> last.Null? || os.MapFailed?
    ensures g.block.Null? ==> g.chain == c
    ensures g.block.At? ==> g.block.i + 1 == |g.chain| && g.chain[g.block.i].free && g.chain[g.block.i].cap >= query
    ensures g.block.At? ==> last.i <= g.block.i && g.chain[..last.i] == c[..last.i] && Used(g.chain) == Used(c)
    ensures g.block.At? ==> var r := AllocRegion(BlockAfter(c[last.i]), query, os).value;
      && (g.block.i == last.i <==> c[last.i].free && r.adjacent)
      && (g.block.i == last.i ==> g.chain[last.i].addr == c[last.i].addr
                                  && SizeFromCapacity(g.chain[last.i].cap) == SizeFromCapacity(c[last.i].cap) + r.size)
      && (g.block.i != last.i ==> g.chain == c + [RegionBlock(r)])
      && Total(g.chain) == Total(c) + r.size
  {
    if last.Null? then
      Grown(c, Null)
    else
      match AllocRegion(BlockAfter(c[last.i]), query, os)
      case None => Grown(c, Null)
      case Some(r) => Attach(c, last.i, r)
  }

  /** The mapping a growth of `c` for `query` bytes would get overlaps no block of `c`. */
  ghost predicate MappingFresh(c: seq<Block>, query: nat, os: MapResult)
    requires |c| > 0
  {
    match AllocRegion(HeapEnd(c), query, os)
    case None => true
    case Some(r) => Fresh(c, RegionBlock(r))
  }

  /** What memalloc returns (a header or NULL), with the chain it leaves. */
  datatype Allocation = Allocation(chain: seq<Block>, block: Cursor)

  /**
   * memalloc: requests are raised to BLOCK_MIN_CAPACITY; a corrupted start
   * gives NULL; a search that reaches the end grows the heap and retries
   * from the block the growth returned.
   *
   * A block handed back is used and holds the request, and setting it free
   * again gives back the allocated blocks the heap had before the call.
   */
  function Memalloc(c: seq<Block>, start: Cursor, startLinksToItself: bool, query: nat, os: MapResult): (a: Allocation)
    requires start.At? ==> start.i < |c|
    ensures a.block.At? ==> a.block.i < |a.chain| && !a.chain[a.block.i].free
    ensures a.block.At? ==> a.chain[a.block.i].cap >= Max(query, BLOCK_MIN_CAPACITY)
    ensures a.block.At? ==> Used(SetFree(a.chain, a.block.i, true)) == Used(c)
    ensures a.block.Null? ==> Used(a.chain) == Used(c) && Total(a.chain) == Total(c)
    ensures start.Null? || startLinksToItself ==> a == Allocation(c, Null)
    ensures start.At? && !startLinksToItself && !os.MapFailed? ==> a.block.At?
    ensures start.At? && !startLinksToItself && HasFit(c, start.i, Max(query, BLOCK_MIN_CAPACITY)) ==>
      && a.block.At? && Total(a.chain) == Total(c)
      && forall k | start.i <= k < a.block.i :: !Fits(a.chain[k], Max(query, BLOCK_MIN_CAPACITY))
    ensures var f := FindGoodOrLast(c, start, startLinksToItself, Max(query, BLOCK_MIN_CAPACITY));
      f.result.Found? ==> a.block == At(f.result.i) && Total(a.chain) == Total(c)
    ensures os.MapFailed? ==> Total(a.chain) == Total(c)
    ensures a.block.At? ==>
      || Total(a.chain) == Total(c)
      || (&& Total(a.chain) == Total(c) + RegionActualSize(SizeFromCapacity(Max(query, BLOCK_MIN_CAPACITY)))
          && |a.chain| <= a.block.i + 2)
  {
    var q := Max(query, BLOCK_MIN_CAPACITY);
    var t := TryMemallocExisting(c, start, startLinksToItself, q);
    match t.result
    case Found(i) => Allocation(t.chain, At(i))
    case Corrupted(_) => Allocation(t.chain, Null)
    case ReachedEnd(i) => GrowAndRetry(t.chain, i, q, os)
  }

  /**
   * When the search finds a block, memalloc hands out that block of the
   * chain the search left: cut to the request when it is splittable, only
   * marked used when not, with the memory of the heap unchanged.
   */
  lemma MemallocServesFound(c: seq<Block>, start: Cursor, startLinksToItself: bool, query: nat, os: MapResult)
    requires start.At? ==> start.i < |c|
    ensures var q := Max(query, BLOCK_MIN_CAPACITY);
      var f := FindGoodOrLast(c, start, startLinksToItself, q);
      var a := Memalloc(c, start, startLinksToItself, query, os);
      f.result.Found? ==> a.block == At(f.result.i) && SameMemory(c, a.chain) && AllocatedFrom(f.chain, f.result.i, q, a.chain)
  {
    TryMemallocAllocates(c, start, startLinksToItself, Max(query, BLOCK_MIN_CAPACITY));
  }

  /**
   * When the search reaches the end and the mapping succeeds, memalloc grows
   * the heap and serves the request from the grown tail (`GrewAndServed`):
   * it never hands out a block without growing.
   */
  lemma MemallocGrowsAtEnd(c: seq<Block>, start: Cursor, startLinksToItself: bool, query: nat, os: MapResult)
    requires start.At? ==> start.i < |c|
    ensures var q := Max(query, BLOCK_MIN_CAPACITY);
      var f := FindGoodOrLast(c, start, startLinksToItself, q);
      var a := Memalloc(c, start, startLinksToItself, query, os);
      f.result.ReachedEnd? && !os.MapFailed? ==>
        && GrewAndServed(f.chain, f.result.i, AllocRegion(BlockAfter(f.chain[f.result.i]), q, os).value, a)
        && Total(a.chain) == Total(c) + RegionActualSize(SizeFromCapacity(q))
  {
    var q := Max(query, BLOCK_MIN_CAPACITY);
    var t := TryMemallocExisting(c, start, startLinksToItself, q);
    if t.result.ReachedEnd? && !os.MapFailed? {
      assert Memalloc(c, start, startLinksToItself, query, os) == GrowAndRetry(t.chain, t.result.i, q, os);
    }
  }

  /**
   * The end of memalloc once the search has reached the last block `last`:
   * grow the heap and retry from the block grow_heap returns, or give NULL
   * with nothing changed when the mapping fails.
   */
  function GrowAndRetry(c: seq<Block>, last: nat, q: nat, os: MapResult): (a: Allocation)
    requires last + 1 == |c|
    ensures os.MapFailed? ==> a == Allocation(c, Null)
    ensures !os.MapFailed? ==>
      && a.block.At? && a.block.i < |a.chain|
      && !a.chain[a.block.i].free && a.chain[a.block.i].cap >= q
      && Used(SetFree(a.chain, a.block.i, true)) == Used(c)
      && Total(a.chain) == Total(c) + RegionActualSize(SizeFromCapacity(q))
      && |a.chain| <= a.block.i + 2
      && GrewAndServed(c, last, AllocRegion(BlockAfter(c[last]), q, os).value, a)
  {
    var g := GrowHeap(c, At(last), q, os);
    if g.block.Null? then
      Allocation(c, Null)
    else
      GrowthServes(c, last, q, os);
      GrowthServesShape(c, last, q, os);
      var u := TryMemallocExisting(g.chain, g.block, false, q);
      Allocation(u.chain, u.result.BlockPtr())
  }

  /**
   * After a growth the retry from the new tail takes that tail: the block
   * is used and holds the request, it is the last or the next-to-last block,
   * and the heap is larger by exactly the region mapped.
   */
  lemma GrowthServes(c: seq<Block>, last: nat, q: nat, os: MapResult)
    requires last + 1 == |c| && !os.MapFailed?
    ensures var g := GrowHeap(c, At(last), q, os);
      var u := TryMemallocExisting(g.chain, g.block, false, q);
      && g.block.At? && u.result.Found? && u.result.i < |u.chain|
      && !u.chain[u.result.i].free && u.chain[u.result.i].cap >= q
      && Used(SetFree(u.chain, u.result.i, true)) == Used(c)
      && Total(u.chain) == Total(c) + RegionActualSize(SizeFromCapacity(q))
      && |u.chain| <= u.result.i + 2
  {
    var g := GrowHeap(c, At(last), q, os);
    assert Fits(g.chain[g.block.i], q);
    TryMemallocAtTail(g.chain, g.block.i, q);
  }

  /** After a growth the retry's block is the old last block or the region's own block, as `GrewAndServed` says. */
  lemma GrowthServesShape(c: seq<Block>, last: nat, q: nat, os: MapResult)
    requires last + 1 == |c| && !os.MapFailed?
    ensures var g := GrowHeap(c, At(last), q, os);
      var u := TryMemallocExisting(g.chain, g.block, false, q);
      GrewAndServed(c, last, AllocRegion(BlockAfter(c[last]), q, os).value, Allocation(u.chain, u.result.BlockPtr()))
  {
    var g := GrowHeap(c, At(last), q, os);
    assert Fits(g.chain[g.block.i], q);
    TryMemallocAtTail(g.chain, g.block.i, q);
    var u := TryMemallocExisting(g.chain, g.block, false, q);
    TryMemallocKeepsMemory(g.chain, g.block, q);
    GrewAndServedIntro(c, last, AllocRegion(BlockAfter(c[last]), q, os).value, g, Allocation(u.chain, u.result.BlockPtr()));
  }

  /** The retry keeps the footprint of the grown heap. */
  lemma TryMemallocKeepsMemory(c: seq<Block>, from: Cursor, q: nat)
    requires from.At? ==> from.i < |c|
    ensures Total(TryMemallocExisting(c, from, false, q).chain) == Total(c)
  {
  }

  /** The facts about a growth and the retry after it that make up `GrewAndServed`. */
  lemma GrewAndServedIntro(c: seq<Block>, last: nat, r: Region, g: Grown, a: Allocation)
    requires last + 1 == |c| && H <= r.size
    requires g.block.At? && g.block.i + 1 == |g.chain| && last <= g.block.i
    requires g.chain[..last] == c[..last]
    requires g.block.i == last <==> c[last].free && r.adjacent
    requires g.block.i == last ==> g.chain[last].addr == c[last].addr
    requires g.block.i != last ==> g.chain == c + [RegionBlock(r)]
    requires Total(g.chain) == Total(c) + r.size
    requires a.block == At(g.block.i) && a.block.i < |a.chain|
    requires a.chain[a.block.i].addr == g.chain[g.block.i].addr
    requires forall k | 0 <= k < g.block.i :: a.chain[k] == g.chain[k]
    requires Total(a.chain) == Total(g.chain)
    ensures GrewAndServed(c, last, r, a)
  {
    forall m | 0 <= m < last ensures a.chain[m] == c[m] {
      assert a.chain[m] == g.chain[m] == g.chain[..last][m];
    }
    if g.block.i != last {
      assert a.chain[last] == g.chain[last] == c[last];
    }
  }

  /**
   * `a` is what memalloc returns once the heap `c`, whose last block is
   * `last`, has grown by the region `r` and the retry has served the
   * request: the blocks before the last are unchanged; the block returned
   * is the old last block, keeping its address, exactly when that block was
   * free and the region landed right after it, and otherwise it is the
   * region's own block, behind the unchanged old last block; the heap is
   * larger by exactly the region.
   */
  ghost predicate GrewAndServed(c: seq<Block>, last: nat, r: Region, a: Allocation)
  {
    && last + 1 == |c|
    && a.block.At? && last <= a.block.i < |a.chain|
    && (forall m | 0 <= m < last :: a.chain[m] == c[m])
    && (a.block.i == last <==> c[last].free && r.adjacent)
    && (a.block.i == last ==> a.chain[last].addr == c[last].addr)
    && (a.block.i != last ==> a.block.i == last + 1 && a.chain[last] == c[last] && a.chain[last + 1].addr == r.addr)
    && Total(a.chain) == Total(c) + r.size
  }

  /** A growth whose mapping lands apart from the heap keeps the chain free of overlaps. */
  lemma GrowHeapKeepsDisjoint(c: seq<Block>, last: nat, query: nat, os: MapResult)
    requires last + 1 == |c| && Disjoint(c) && MappingFresh(c, query, os)
    ensures Disjoint(GrowHeap(c, At(last), query, os).chain)
  {
    if !os.MapFailed? {
      AttachKeepsDisjoint(c, last, AllocRegion(HeapEnd(c), query, os).value);
    }
  }

  /** A search that reaches the end leaves the heap ending where it did, with fresh memory still fresh. */
  lemma SearchKeepsMappingFresh(c: seq<Block>, start: nat, startLinksToItself: bool, query: nat, os: MapResult)
    requires start < |c| && MappingFresh(c, query, os)
    ensures var t := TryMemallocExisting(c, At(start), startLinksToItself, query);
      |t.chain| > 0 ==> MappingFresh(t.chain, query, os)
  {
    var t := TryMemallocExisting(c, At(start), startLinksToItself, query);
    if !os.MapFailed? && |t.chain| > 0 {
      var r := AllocRegion(HeapEnd(c), query, os).value;
      assert HeapEnd(t.chain) == HeapEnd(c);
      TryMemallocKeepsFresh(c, At(start), startLinksToItself, query, RegionBlock(r));
    }
  }

  /** When the system maps apart from the heap, memalloc keeps the chain free of overlaps. */
  lemma MemallocKeepsDisjoint(c: seq<Block>, start: nat, startLinksToItself: bool, query: nat, os: MapResult)
    requires start < |c| && Disjoint(c)
    requires MappingFresh(c, Max(query, BLOCK_MIN_CAPACITY), os)
    ensures Disjoint(Memalloc(c, At(start), startLinksToItself, query, os).chain)
  {
    var q := Max(query, BLOCK_MIN_CAPACITY);
    var t := TryMemallocExisting(c, At(start), startLinksToItself, q);
    if t.result.ReachedEnd? {
      SearchKeepsMappingFresh(c, start, startLinksToItself, q, os);
      GrowAndRetryKeepsDisjoint(t.chain, t.result.i, q, os);
    }
  }

  /** Growing and retrying keeps the chain free of overlaps when the mapping lands apart from the heap. */
  lemma GrowAndRetryKeepsDisjoint(c: seq<Block>, last: nat, q: nat, os: MapResult)
    requires last + 1 == |c| && Disjoint(c) && MappingFresh(c, q, os)
    ensures Disjoint(GrowAndRetry(c, last, q, os).chain)
  {
    GrowHeapKeepsDisjoint(c, last, q, os);
  }

  /** What _malloc returns (the contents pointer or NULL), with the chain it leaves. */
  datatype Malloced = Malloced(chain: seq<Block>, ptr: Option<nat>)

  /**
   * _malloc: memalloc from the first block of the heap; the pointer handed
   * out is the contents of the block memalloc returned.
   */
  function Malloc(c: seq<Block>, startLinksToItself: bool, query: nat, os: MapResult): (m: Malloced)
    requires |c| > 0
    ensures m.ptr.Some? ==> exists k | 0 <= k < |m.chain| ::
      && Contents(m.chain[k]) == m.ptr.value && !m.chain[k].free && m.chain[k].cap >= query
    ensures m.ptr.None? ==> Used(m.chain) == Used(c)
    ensures startLinksToItself ==> m == Malloced(c, None)
    ensures !startLinksToItself && (!os.MapFailed? || HasFit(c, 0, Max(query, BLOCK_MIN_CAPACITY))) ==> m.ptr.Some?
  {
    var a := Memalloc(c, At(0), startLinksToItself, query, os);
    if a.block.At? then
      Malloced(a.chain, Some(Contents(a.chain[a.block.i])))
    else
      Malloced(a.chain, None)
  }

  /** block_get_header: the header sits H bytes before the contents. */
  function BlockGetHeader(mem: nat): (a: int)
    ensures a + H == mem
  {
    mem - H
  }

  /** block_get_header undoes the step from a header to its contents. */
  lemma GetHeaderInvertsContents(b: Block)
    ensures BlockGetHeader(Contents(b)) == b.addr
  {
  }

  /** The first block of the chain whose header is at `a`, searching from `from`. */
  function HeaderIndexFrom(c: seq<Block>, a: int, from: nat): (k: Option<nat>)
    requires from <= |c|
    ensures k.Some? ==> from <= k.value < |c| && c[k.value].addr == a
    ensures k.Some? ==> forall m | from <= m < k.value :: c[m].addr != a
    ensures k.None? ==> forall m | from <= m < |c| :: c[m].addr != a
    decreases |c| - from
  {
    if from == |c| then None
    else if c[from].addr == a then Some(from)
    else HeaderIndexFrom(c, a, from + 1)
  }

  /** The block of the chain whose header is at `a`, if there is one. */
  function HeaderIndex(c: seq<Block>, a: int): (k: Option<nat>)
    ensures k.Some? ==> k.value < |c| && c[k.value].addr == a
    ensures k.None? <==> forall m | 0 <= m < |c| :: c[m].addr != a
  {
    HeaderIndexFrom(c, a, 0)
  }

  /** In a chain without overlaps a header address names exactly one block. */
  lemma HeaderIndexOfDisjoint(c: seq<Block>, k: nat)
    requires Disjoint(c) && k < |c|
    ensures HeaderIndex(c, c[k].addr) == Some(k)
  {
    var h := HeaderIndex(c, c[k].addr);
    if h.value != k {
      DisjointAddressesDiffer(c, h.value, k);
    }
  }

  /**
   * The body of _free for the block at index `k`: mark it free, then let it
   * absorb its free contiguous successors. Blocks before it and after the
   * run it absorbs are untouched; nothing merges into a free block in front
   * of it.
   */
  function FreeAt(c: seq<Block>, k: nat): (r: seq<Block>)
    requires k < |c|
    ensures k < |r| <= |c| && r[..k] == c[..k]
    ensures r[k].addr == c[k].addr && r[k].free && r[k].cap >= c[k].cap && Settled(r, k)
    ensures Used(r) == Used(SetFree(c, k, true))
    ensures SameMemory(c, r)
    ensures ForwardMerged(SetFree(c, k, true), k, r)
    ensures FreedRun(c, k, r)
  {
    var f := SetFree(c, k, true);
    SetFreeSameMemory(c, k, true);
    assert f[..k] == c[..k];
    var r := MergeForward(f, k);
    ForwardMergedAfterFree(c, k, r);
    r
  }

  /**
   * `r` is `c` after freeing block `k` and letting it absorb the blocks
   * after it: the blocks absorbed were free and each began where the one
   * before it ended, the freed block ends where the last of them ended, and
   * every block after the run is the same block, moved down.
   */
  ghost predicate FreedRun(c: seq<Block>, k: nat, r: seq<Block>)
  {
    && k < |r| <= |c|
    && (forall m | k < m <= k + |c| - |r| :: c[m].free && BlocksContinuous(c[m - 1], c[m]))
    && BlockAfter(r[k]) == BlockAfter(c[k + |c| - |r|])
    && (forall m | k < m < |r| :: r[m] == c[m + |c| - |r|])
  }

  /** A forward merge after freeing block `k`, read against the chain before the free. */
  lemma ForwardMergedAfterFree(c: seq<Block>, k: nat, r: seq<Block>)
    requires k < |c| && ForwardMerged(SetFree(c, k, true), k, r)
    ensures FreedRun(c, k, r)
  {
    var f := SetFree(c, k, true);
    forall m | k < m <= k + |c| - |r| ensures c[m].free && BlocksContinuous(c[m - 1], c[m]) {
      assert Mergeable(f[m - 1], f[m]);
    }
    ForwardMergedFacts(f, k, r);
    forall m | k < m < |r| ensures r[m] == c[m + |c| - |r|] {
      assert r[m] == f[m + |c| - |r|];
    }
  }

  /**
   * _free: NULL is ignored; otherwise the block whose header sits in front
   * of `mem`, which must be a block of the heap, is freed and coalesced
   * forward.
   */
  function Free(c: seq<Block>, mem: Option<nat>): (r: seq<Block>)
    requires mem.Some? ==> HeaderIndex(c, BlockGetHeader(mem.value)).Some?
    ensures mem.None? ==> r == c
    ensures mem.Some? ==> var k := HeaderIndex(c, BlockGetHeader(mem.value)).value;
      && k < |r| && r[..k] == c[..k] && Contents(r[k]) == mem.value && r[k].free && Settled(r, k)
      && Used(r) == Used(SetFree(c, k, true)) && FreedRun(c, k, r)
    ensures SameMemory(c, r)
  {
    match mem
    case None => c
    case Some(p) => FreeAt(c, HeaderIndex(c, BlockGetHeader(p)).value)
  }

  /**
   * Freeing the block try_memalloc_existing handed out gives back exactly
   * the chain its search left: the split remainder is merged back and the
   * block, settled before, stays settled.
   */
  lemma {:induction false} FreeUndoesTryMemalloc(c: seq<Block>, from: nat, query: nat)
    requires from < |c|
    ensures var s := TryMemallocExisting(c, At(from), false, query);
      s.result.Found? ==> FreeAt(s.chain, s.result.i) == FindGoodOrLast(c, At(from), false, query).chain
  {
    var s := TryMemallocExisting(c, At(from), false, query);
    var f := FindGoodOrLast(c, At(from), false, query);
    if s.result.Found? {
      var k := s.result.i;
      var sp := SplitIfTooBig(f.chain, At(k), query);
      SetFreeRestores(sp.chain, k, false);
      assert SetFree(s.chain, k, true) == sp.chain;
      if sp.changed {
        SplitThenMergeRestores(f.chain, k, query);
        assert MergeForward(sp.chain, k) == MergeForward(f.chain, k);
      }
    }
  }

  /**
   * _malloc then _free of the pointer it returned leaves the heap with the
   * allocated blocks it had before, provided the system maps new regions
   * apart from the heap.
   */
  lemma MallocFreeRoundTrip(c: seq<Block>, query: nat, os: MapResult)
    requires |c| > 0 && Disjoint(c)
    requires MappingFresh(c, Max(query, BLOCK_MIN_CAPACITY), os)
    ensures var m := Malloc(c, false, query, os);
      m.ptr.Some? ==> HeaderIndex(m.chain, BlockGetHeader(m.ptr.value)).Some?
                      && Used(Free(m.chain, m.ptr)) == Used(c)
  {
    var a := Memalloc(c, At(0), false, query, os);
    if a.block.At? {
      MemallocKeepsDisjoint(c, 0, false, query, os);
      FreeOfHandedOut(a.chain, a.block.i);
    }
  }

  /** In a chain without overlaps, _free of the contents of block `i` finds that block and frees exactly it. */
  lemma FreeOfHandedOut(c: seq<Block>, i: nat)
    requires i < |c| && Disjoint(c)
    ensures HeaderIndex(c, BlockGetHeader(Contents(c[i]))) == Some(i)
    ensures Used(Free(c, Some(Contents(c[i])))) == Used(SetFree(c, i, true))
  {
    HeaderIndexOfDisjoint(c, i);
    GetHeaderInvertsContents(c[i]);
  }

  /** One successful _malloc adds exactly one allocated block. */
  lemma MemallocAllocatesOne(c: seq<Block>, start: Cursor, startLinksToItself: bool, query: nat, os: MapResult)
    requires start.At? ==> start.i < |c|
    ensures var a := Memalloc(c, start, startLinksToItself, query, os);
      a.block.At? ==> |Used(a.chain)| == |Used(c)| + 1
  {
    var a := Memalloc(c, start, startLinksToItself, query, os);
    if a.block.At? {
      UsedSetFreeCount(a.chain, a.block.i, true);
    }
  }

  /** One _free of an allocated block removes exactly one allocated block. */
  lemma FreeReleasesOne(c: seq<Block>, k: nat)
    requires k < |c| && !c[k].free
    ensures |Used(FreeAt(c, k))| + 1 == |Used(c)|
  {
    UsedSetFreeCount(c, k, true);
  }

  /** A block whose successor does not begin where it ends absorbs nothing when freed, even a free successor. */
  lemma FreeStopsAtGap(c: seq<Block>, k: nat)
    requires k + 1 < |c| && !BlocksContinuous(c[k], c[k + 1])
    ensures FreeAt(c, k) == SetFree(c, k, true)
  {
    var f := SetFree(c, k, true);
    var r := FreeAt(c, k);
    assert |r| == |c|;
    ForwardMergedNothing(f, k, r);
  }
}

=== FILE: blocks.dfy ===
/**
 * The block chain: the headers threaded through mapped memory (src/mem.c,
 * lines 15-28 and 126-128).
 *
 * A chain is the sequence of headers in `next` order; the `next` of a header
 * is the element after it, or NULL for the last one. A block is described by
 * the address of its header, its capacity (bytes usable by the caller) and
 * its free flag. The header occupies H bytes, so the block spans the
 * addresses [addr, addr + H + cap).
 */
module Blocks {
  import opened Layout

  datatype Option<T> = None | Some(value: T)

  datatype Block = Block(addr: nat, cap: nat, free: bool)

  /** A pointer to a block header: NULL, or the i-th header of the chain. */
  datatype Cursor = Null | At(i: nat)

  /** The result of an edit that may or may not fire (split, merge). */
  datatype Step = Step(chain: seq<Block>, changed: bool)

  /** size_from_capacity: bytes a block of capacity `cap` occupies, header included. */
  function SizeFromCapacity(cap: nat): nat
  {
    cap + H
  }

  /** capacity_from_size */
  function CapacityFromSize(size: nat): nat
    requires H <= size
  {
    size - H
  }

  /** block_init: a free header at `addr` for a span of `size` bytes. */
  function BlockInit(addr: nat, size: nat): (b: Block)
    requires H <= size
    ensures b.addr == addr && b.free
    ensures SizeFromCapacity(b.cap) == size
  {
    Block(addr, CapacityFromSize(size), true)
  }

  /** The address of the contents, which is what _malloc hands out. */
  function Contents(b: Block): nat
  {
    b.addr + H
  }

  /** block_after: the first address past the block's contents. */
  function BlockAfter(b: Block): nat
  {
    Contents(b) + b.cap
  }

  /** The two blocks' spans do not overlap. */
  predicate Apart(a: Block, b: Block)
  {
    BlockAfter(a) <= b.addr || BlockAfter(b) <= a.addr
  }

  /** No two blocks of the chain overlap. */
  ghost predicate Disjoint(c: seq<Block>)
  {
    forall i, j | 0 <= i < j < |c| :: Apart(c[i], c[j])
  }

  /** `b` overlaps no block of the chain. */
  ghost predicate Fresh(c: seq<Block>, b: Block)
  {
    forall k | 0 <= k < |c| :: Apart(c[k], b)
  }

  /** Total footprint of the chain: headers plus capacities. */
  function Total(c: seq<Block>): nat
  {
    if |c| == 0 then 0 else SizeFromCapacity(c[0].cap) + Total(c[1..])
  }

  /** The allocated blocks of the chain, in chain order. */
  function Used(c: seq<Block>): seq<Block>
  {
    if |c| == 0 then [] else (if c[0].free then [] else [c[0]]) + Used(c[1..])
  }

  /** The chain with the free flag of block `k` set to `f`. */
  function SetFree(c: seq<Block>, k: nat, f: bool): (r: seq<Block>)
    requires k < |c|
    ensures |r| == |c| && r[k] == c[k].(free := f)
    ensures forall m | 0 <= m < |c| && m != k :: r[m] == c[m]
  {
    c[k := c[k].(free := f)]
  }

  /** Setting a flag to what it already is changes nothing; setting it twice keeps the last value. */
  lemma SetFreeRestores(c: seq<Block>, k: nat, f: bool)
    requires k < |c|
    ensures SetFree(SetFree(c, k, f), k, c[k].free) == c
  {
  }

  /** Allocating a free block adds one block to the allocated ones; freeing a used block removes one. */
  lemma {:induction false} UsedSetFreeCount(c: seq<Block>, k: nat, f: bool)
    requires k < |c|
    ensures |Used(SetFree(c, k, f))| + (if c[k].free then 0 else 1) == |Used(c)| + (if f then 0 else 1)
  {
    var r := SetFree(c, k, f);
    if k > 0 {
      assert r[1..] == SetFree(c[1..], k - 1, f);
      UsedSetFreeCount(c[1..], k - 1, f);
    } else {
      assert r[1..] == c[1..];
    }
  }

  /** Flipping a flag keeps memory outside the chain outside it. */
  lemma SetFreeKeepsFresh(c: seq<Block>, k: nat, f: bool, b: Block)
    requires k < |c| && Fresh(c, b)
    ensures Fresh(SetFree(c, k, f), b)
  {
    var r := SetFree(c, k, f);
    forall m | 0 <= m < |r| ensures Apart(r[m], b) {
      assert Apart(c[m], b);
    }
  }

  /** End address of the last block: where the heap grows from. */
  function HeapEnd(c: seq<Block>): nat
    requires |c| > 0
  {
    BlockAfter(c[|c| - 1])
  }

  /** `r` covers the same memory as `c`: the same footprint, the same end, no overlap where `c` had none. */
  ghost predicate SameMemory(c: seq<Block>, r: seq<Block>)
  {
    && Total(r) == Total(c)
    && (|c| > 0 <==> |r| > 0)
    && (|c| > 0 ==> HeapEnd(r) == HeapEnd(c))
    && (Disjoint(c) ==> Disjoint(r))
  }

  /** `r` is `c` after merging free neighbours: same memory, same allocations, no more blocks. */
  ghost predicate Coalescing(c: seq<Block>, r: seq<Block>)
  {
    && SameMemory(c, r)
    && Used(r) == Used(c)
    && |r| <= |c|
  }

  lemma SameMemoryTransitive(a: seq<Block>, b: seq<Block>, c: seq<Block>)
    requires SameMemory(a, b) && SameMemory(b, c)
    ensures SameMemory(a, c)
  {
  }

  lemma CoalescingTransitive(a: seq<Block>, b: seq<Block>, c: seq<Block>)
    requires Coalescing(a, b) && Coalescing(b, c)
    ensures Coalescing(a, c)
  {
    SameMemoryTransitive(a, b, c);
  }

  lemma {:induction false} TotalConcat(a: seq<Block>, b: seq<Block>)
    ensures Total(a + b) == Total(a) + Total(b)
    decreases |a|
  {
    if |a| > 0 {
      assert (a + b)[1..] == a[1..] + b;
      TotalConcat(a[1..], b);
    } else {
      assert a + b == b;
    }
  }

  lemma {:induction false} UsedConcat(a: seq<Block>, b: seq<Block>)
    ensures Used(a + b) == Used(a) + Used(b)
    decreases |a|
  {
    if |a| > 0 {
      assert (a + b)[1..] == a[1..] + b;
      UsedConcat(a[1..], b);
    } else {
      assert a + b == b;
    }
  }

  /** Replacing one block by another of the same footprint keeps the total. */
  lemma TotalReplace(c: seq<Block>, k: nat, b: Block)
    requires k < |c| && b.cap == c[k].cap
    ensures Total(c[k := b]) == Total(c)
  {
    assert c == c[..k] + [c[k]] + c[k + 1..];
    assert c[k := b] == c[..k] + [b] + c[k + 1..];
    TotalConcat(c[..k] + [c[k]], c[k + 1..]);
    TotalConcat(c[..k], [c[k]]);
    TotalConcat(c[..k] + [b], c[k + 1..]);
    TotalConcat(c[..k], [b]);
  }

  /** Changing a free flag moves no memory. */
  lemma SetFreeSameMemory(c: seq<Block>, k: nat, f: bool)
    requires k < |c|
    ensures SameMemory(c, SetFree(c, k, f))
  {
    var r := SetFree(c, k, f);
    TotalReplace(c, k, c[k].(free := f));
    if Disjoint(c) {
      forall i, j | 0 <= i < j < |r| ensures Apart(r[i], r[j]) {
        assert Apart(c[i], c[j]);
      }
    }
  }

  /** Two blocks at the same address in an overlap-free chain are the same block. */
  lemma DisjointAddressesDiffer(c: seq<Block>, i: nat, j: nat)
    requires Disjoint(c)
    requires i < |c| && j < |c| && i != j
    ensures c[i].addr != c[j].addr
  {
    if i < j {
      assert Apart(c[i], c[j]);
    } else {
      assert Apart(c[j], c[i]);
    }
  }

  /** A block that touches two contiguous blocks' union only from outside is apart from the union. */
  lemma ApartFromUnion(a: Block, b: Block, x: Block)
    requires b.addr == BlockAfter(a)
    requires Apart(a, x) && Apart(b, x)
    ensures Apart(a.(cap := a.cap + SizeFromCapacity(b.cap)), x)
  {
  }

  /** The pieces of a block cut at a contiguous boundary are apart from whatever the block was apart from. */
  lemma ApartFromPiece(whole: Block, piece: Block, x: Block)
    requires whole.addr <= piece.addr
    requires BlockAfter(piece) <= BlockAfter(whole)
    requires Apart(whole, x)
    ensures Apart(piece, x)
  {
  }
}

=== FILE: layout.dfy ===
/**
 * Configuration constants of the allocator and the page arithmetic that sizes
 * every region it maps (src/mem.c, lines 18-30).
 *
 * The header size, the page size and the minimum region size come from a
 * header file and from the operating system, neither of which is part of
 * this model, so they are left symbolic: every property below holds for any
 * positive header size and page size and any minimum region size.
 */
module Layout {

  type Positive = x: nat | 0 < x witness 1

  /** offsetof(struct block_header, contents): bytes of metadata in front of a block's contents. */
  const H: Positive

  /** The page size reported by getpagesize(). */
  const PAGE_SIZE: Positive

  /** REGION_MIN_SIZE: no region smaller than this is ever mapped. */
  const REGION_MIN_SIZE: nat

  /** BLOCK_MIN_CAPACITY: the floor for a request and for the remainder a split leaves behind. */
  const BLOCK_MIN_CAPACITY: nat := 24

  /** size_max */
  function Max(a: nat, b: nat): (r: nat)
    ensures r >= a && r >= b
    ensures r == a || r == b
  {
    if a >= b then a else b
  }

  /** Number of whole pages needed to hold `mem` bytes: the fewest pages that cover it. */
  function PagesCount(mem: nat): (n: nat)
    ensures mem <= n * PAGE_SIZE
    ensures n * PAGE_SIZE < mem + PAGE_SIZE
  {
    DivModFacts(mem);
    mem / PAGE_SIZE + (if mem % PAGE_SIZE > 0 then 1 else 0)
  }

  lemma DivModFacts(mem: nat)
    ensures mem == (mem / PAGE_SIZE) * PAGE_SIZE + mem % PAGE_SIZE
    ensures 0 <= mem % PAGE_SIZE < PAGE_SIZE
    ensures (mem / PAGE_SIZE + 1) * PAGE_SIZE == (mem / PAGE_SIZE) * PAGE_SIZE + PAGE_SIZE
  {
  }

  /** `mem` rounded up to a whole number of pages. */
  function RoundPages(mem: nat): (r: nat)
    ensures r % PAGE_SIZE == 0
    ensures mem <= r < mem + PAGE_SIZE
  {
    var n := PagesCount(mem);
    MultipleOfPage(n);
    PAGE_SIZE * n
  }

  lemma MultipleOfPage(n: nat)
    ensures (PAGE_SIZE * n) % PAGE_SIZE == 0
    ensures PAGE_SIZE * n == n * PAGE_SIZE
  {
    var k := PAGE_SIZE * n;
    DivModFacts(k);
    var q := k / PAGE_SIZE;
    assert (n - q) * PAGE_SIZE == k % PAGE_SIZE;
    PageMultiples(n - q);
  }

  /** A nonzero number of pages is at least one page away from zero. */
  lemma PageMultiples(d: int)
    ensures d >= 1 ==> d * PAGE_SIZE >= PAGE_SIZE
    ensures d <= -1 ==> d * PAGE_SIZE + PAGE_SIZE <= 0
  {
  }

  /** RoundPages(mem) is the least page multiple that is at least `mem`. */
  lemma {:induction false} RoundPagesIsLeast(mem: nat, k: nat)
    requires k % PAGE_SIZE == 0
    requires mem <= k
    ensures RoundPages(mem) <= k
  {
    var r := RoundPages(mem);
    DivModFacts(k);
    DivModFacts(r);
    var a := r / PAGE_SIZE;
    var b := k / PAGE_SIZE;
    assert r == a * PAGE_SIZE && k == b * PAGE_SIZE;
    assert (a - b) * PAGE_SIZE == r - k;
    PageMultiples(a - b);
  }

  /**
   * Size of the region mapped for a request of `query` bytes (header
   * included): whole pages, and never less than REGION_MIN_SIZE.
   */
  function RegionActualSize(query: nat): (r: nat)
    ensures query <= r
    ensures RoundPages(query) <= r
    ensures REGION_MIN_SIZE <= r
    ensures r == REGION_MIN_SIZE || (r % PAGE_SIZE == 0 && r < query + PAGE_SIZE)
  {
    Max(RoundPages(query), REGION_MIN_SIZE)
  }
}

=== FILE: merge.dfy ===
/**
 * Forward coalescing (src/mem.c, lines 119-163 and the merge loops of lines
 * 187 and 309): a free block absorbs its free successor when the successor
 * starts exactly where the block's contents end.
 */
module Merge {
  import opened Layout
  import opened Blocks

  /** blocks_continuous: `snd` begins at block_after(`fst`). */
  predicate BlocksContinuous(fst: Block, snd: Block)
  {
    snd.addr == BlockAfter(fst)
  }

  /** mergeable: both free and address-contiguous. */
  predicate Mergeable(fst: Block, snd: Block)
  {
    fst.free && snd.free && BlocksContinuous(fst, snd)
  }

  /** Block `i` cannot absorb its successor (or has none). */
  predicate Settled(c: seq<Block>, i: nat)
    requires i < |c|
  {
    !(i + 1 < |c| && Mergeable(c[i], c[i + 1]))
  }

  /** The chain in which block `i` has absorbed block `i + 1`, which leaves the chain. */
  function Absorb(c: seq<Block>, i: nat): (r: seq<Block>)
    requires i + 1 < |c| && Mergeable(c[i], c[i + 1])
    ensures |r| + 1 == |c|
    ensures forall k | 0 <= k < i :: r[k] == c[k]
    ensures r[i] == Block(c[i].addr, c[i].cap + SizeFromCapacity(c[i + 1].cap), true)
    ensures forall k | i < k < |r| :: r[k] == c[k + 1]
  {
    c[..i] + [c[i].(cap := c[i].cap + SizeFromCapacity(c[i + 1].cap))] + c[i + 2..]
  }

  /** Absorbing a free contiguous neighbour moves no memory and frees or allocates nothing. */
  lemma AbsorbIsCoalescing(c: seq<Block>, i: nat)
    requires i + 1 < |c| && Mergeable(c[i], c[i + 1])
    ensures Coalescing(c, Absorb(c, i))
    ensures BlockAfter(Absorb(c, i)[i]) == BlockAfter(c[i + 1])
  {
    AbsorbCounts(c, i);
    AbsorbKeepsDisjoint(c, i);
  }

  lemma AbsorbCounts(c: seq<Block>, i: nat)
    requires i + 1 < |c| && Mergeable(c[i], c[i + 1])
    ensures Total(Absorb(c, i)) == Total(c)
    ensures Used(Absorb(c, i)) == Used(c)
  {
    var m := Absorb(c, i)[i];
    var pre, post := c[..i], c[i + 2..];
    assert c == pre + [c[i], c[i + 1]] + post;
    assert Absorb(c, i) == pre + [m] + post;
    PairAndMergedAgree(c[i], c[i + 1], m);
    AgreeInContext(pre, [c[i], c[i + 1]], [m], post);
  }

  /** A free contiguous pair and the block it merges into have the same footprint and allocate nothing. */
  lemma PairAndMergedAgree(a: Block, b: Block, m: Block)
    requires a.free && b.free && m.free
    requires m.cap == a.cap + SizeFromCapacity(b.cap)
    ensures Total([a, b]) == Total([m])
    ensures Used([a, b]) == [] == Used([m])
  {
    assert [a, b][1..] == [b];
    assert [b][1..] == [] && [m][1..] == [];
    assert Used([b]) == [] + Used([]);
    assert Used([m]) == [] + Used([]);
  }

  lemma AgreeInContext(pre: seq<Block>, x: seq<Block>, y: seq<Block>, post: seq<Block>)
    requires Total(x) == Total(y) && Used(x) == Used(y)
    ensures Total(pre + x + post) == Total(pre + y + post)
    ensures Used(pre + x + post) == Used(pre + y + post)
  {
    TotalConcat(pre + x, post);
    TotalConcat(pre, x);
    TotalConcat(pre + y, post);
    TotalConcat(pre, y);
    UsedConcat(pre + x, post);
    UsedConcat(pre, x);
    UsedConcat(pre + y, post);
    UsedConcat(pre, y);
  }

  lemma AbsorbKeepsFresh(c: seq<Block>, i: nat, b: Block)
    requires i + 1 < |c| && Mergeable(c[i], c[i + 1])
    requires Fresh(c, b)
    ensures Fresh(Absorb(c, i), b)
  {
    var r := Absorb(c, i);
    forall k | 0 <= k < |r| ensures Apart(r[k], b) {
      if k == i {
        ApartFromUnion(c[i], c[i + 1], b);
      } else if k > i {
        assert Apart(c[k + 1], b);
      } else {
        assert Apart(c[k], b);
      }
    }
  }

  lemma AbsorbKeepsDisjoint(c: seq<Block>, i: nat)
    requires i + 1 < |c| && Mergeable(c[i], c[i + 1])
    ensures Disjoint(c) ==> Disjoint(Absorb(c, i))
  {
    var r := Absorb(c, i);
    if Disjoint(c) {
      forall p, q | 0 <= p < q < |r| ensures Apart(r[p], r[q]) {
        if q < i {
          assert Apart(c[p], c[q]);
        } else if q == i {
          assert Apart(c[p], c[i]) && Apart(c[p], c[i + 1]);
          ApartFromUnion(c[i], c[i + 1], c[p]);
        } else if p < i {
          assert Apart(c[p], c[q + 1]);
        } else if p == i {
          assert Apart(c[i], c[q + 1]) && Apart(c[i + 1], c[q + 1]);
          ApartFromUnion(c[i], c[i + 1], c[q + 1]);
        } else {
          assert Apart(c[p + 1], c[q + 1]);
        }
      }
    }
  }

  /**
   * try_merge_with_next: fires exactly when block `i` and its successor are
   * both free and contiguous; the successor is spliced out and its whole
   * footprint joins block `i`'s capacity. Otherwise nothing changes.
   */
  function TryMergeWithNext(c: seq<Block>, i: nat): (s: Step)
    requires i < |c|
    ensures s.changed <==> !Settled(c, i)
    ensures !s.changed ==> s.chain == c
    ensures s.changed ==> |s.chain| + 1 == |c|
    ensures s.changed ==> forall k | 0 <= k < i :: s.chain[k] == c[k]
    ensures s.changed ==> s.chain[i] == Block(c[i].addr, c[i].cap + SizeFromCapacity(c[i + 1].cap), true)
    ensures s.changed ==> BlockAfter(s.chain[i]) == BlockAfter(c[i + 1])
    ensures s.changed ==> forall k | i < k < |s.chain| :: s.chain[k] == c[k + 1]
    ensures s.changed ==> s.chain == Absorb(c, i)
    ensures Coalescing(c, s.chain)
  {
    if i + 1 < |c| && Mergeable(c[i], c[i + 1]) then
      AbsorbIsCoalescing(c, i);
      Step(Absorb(c, i), true)
    else
      Step(c, false)
  }

  /**
   * `r` is `c` after zero or more merges, each of a free block with its free
   * contiguous successor.
   */
  ghost predicate Merges(c: seq<Block>, r: seq<Block>)
    decreases |c|
  {
    || c == r
    || exists k: nat {:trigger Absorb(c, k)} | k + 1 < |c| && Mergeable(c[k], c[k + 1]) :: Merges(Absorb(c, k), r)
  }

  lemma MergesStep(c: seq<Block>, k: nat, r: seq<Block>)
    requires k + 1 < |c| && Mergeable(c[k], c[k + 1])
    requires Merges(Absorb(c, k), r)
    ensures Merges(c, r)
  {
  }

  lemma {:induction false} MergesTransitive(a: seq<Block>, b: seq<Block>, c: seq<Block>)
    requires Merges(a, b) && Merges(b, c)
    ensures Merges(a, c)
    decreases |a|
  {
    if a != b {
      var k: nat :| k + 1 < |a| && Mergeable(a[k], a[k + 1]) && Merges(Absorb(a, k), b);
      MergesTransitive(Absorb(a, k), b, c);
      MergesStep(a, k, c);
    }
  }

  /** Any series of merges moves no memory and frees or allocates nothing. */
  lemma {:induction false} MergesIsCoalescing(c: seq<Block>, r: seq<Block>)
    requires Merges(c, r)
    ensures Coalescing(c, r)
    decreases |c|
  {
    if c != r {
      var k: nat :| k + 1 < |c| && Mergeable(c[k], c[k + 1]) && Merges(Absorb(c, k), r);
      AbsorbIsCoalescing(c, k);
      MergesIsCoalescing(Absorb(c, k), r);
      CoalescingTransitive(c, Absorb(c, k), r);
    }
  }

  /** A chain with no free contiguous pair cannot change by merging. */
  lemma MergesWithoutPairIsIdentity(c: seq<Block>, r: seq<Block>)
    requires forall k: nat | k + 1 < |c| :: !Mergeable(c[k], c[k + 1])
    requires Merges(c, r)
    ensures r == c
  {
  }

  /** Blocks `i + 1` to `j` are free and each starts where the one before it ends; so is `i` if `i < j`. */
  ghost predicate FreeRun(c: seq<Block>, i: nat, j: nat)
    requires i <= j < |c|
  {
    forall k | i < k <= j :: Mergeable(c[k - 1], c[k])
  }

  /** The capacity block `i` reaches by absorbing blocks `i + 1` to `j` in turn, each adding its footprint. */
  function RunCap(c: seq<Block>, i: nat, j: nat): nat
    requires i <= j < |c|
    decreases j
  {
    if j == i then c[i].cap else RunCap(c, i, j - 1) + SizeFromCapacity(c[j].cap)
  }

  /**
   * `r` is `c` with block `i` grown over the free contiguous run that
   * follows it, of as many blocks as `r` is shorter than `c`; every other
   * block is the same.
   */
  ghost predicate ForwardMerged(c: seq<Block>, i: nat, r: seq<Block>)
  {
    && i < |r| <= |c|
    && FreeRun(c, i, i + |c| - |r|)
    && (forall m | 0 <= m < i :: r[m] == c[m])
    && r[i] == Block(c[i].addr, RunCap(c, i, i + |c| - |r|), c[i].free)
    && r[i + 1..] == c[i + 1 + |c| - |r|..]
  }

  /** A grown block ends where the last block of its run ended. */
  lemma {:induction false} RunEnd(c: seq<Block>, i: nat, j: nat)
    requires i <= j < |c| && FreeRun(c, i, j)
    ensures c[i].addr + H + RunCap(c, i, j) == BlockAfter(c[j])
    ensures c[i].cap <= RunCap(c, i, j)
    decreases j
  {
    if j > i {
      assert Mergeable(c[j - 1], c[j]);
      RunEnd(c, i, j - 1);
    }
  }

  lemma {:induction false} RunCapAbsorb(c: seq<Block>, i: nat, j: nat)
    requires i + 1 < |c| && Mergeable(c[i], c[i + 1])
    requires i <= j && j + 1 < |c|
    ensures RunCap(Absorb(c, i), i, j) == RunCap(c, i, j + 1)
    decreases j
  {
    if j == i {
      assert RunCap(c, i, i) == c[i].cap;
    } else {
      RunCapAbsorb(c, i, j - 1);
      assert Absorb(c, i)[j] == c[j + 1];
    }
  }

  lemma FreeRunAbsorb(c: seq<Block>, i: nat, j: nat)
    requires i + 1 < |c| && Mergeable(c[i], c[i + 1])
    requires i <= j && j + 1 < |c| && FreeRun(Absorb(c, i), i, j)
    ensures FreeRun(c, i, j + 1)
  {
    var s := Absorb(c, i);
    forall k | i < k <= j + 1 ensures Mergeable(c[k - 1], c[k]) {
      if k == i + 2 {
        assert Mergeable(s[i], s[i + 1]);
      } else if k > i + 2 {
        assert Mergeable(s[k - 2], s[k - 1]);
      }
    }
  }

  /** One more merge in front of a forward-merged chain lengthens the run by one block. */
  lemma ForwardMergedStep(c: seq<Block>, i: nat, r: seq<Block>)
    requires i + 1 < |c| && Mergeable(c[i], c[i + 1])
    requires ForwardMerged(Absorb(c, i), i, r)
    ensures ForwardMerged(c, i, r)
  {
    var s := Absorb(c, i);
    var j := i + |s| - |r|;
    FreeRunAbsorb(c, i, j);
    RunCapAbsorb(c, i, j);
    forall m | i < m < |r| ensures r[m] == c[m + |c| - |r|] {
      assert r[m] == s[m + |s| - |r|];
    }
  }

  /** A forward merge that absorbed no block changed nothing. */
  lemma ForwardMergedNothing(c: seq<Block>, i: nat, r: seq<Block>)
    requires ForwardMerged(c, i, r) && |r| == |c|
    ensures r == c
  {
    assert RunCap(c, i, i) == c[i].cap;
    forall m | 0 <= m < |r| ensures r[m] == c[m] {
      if m > i {
        assert r[m] == c[m + |c| - |r|];
      }
    }
  }

  /** What a forward merge keeps: the blocks before, the address and flag, and where the run ended. */
  lemma ForwardMergedFacts(c: seq<Block>, i: nat, r: seq<Block>)
    requires ForwardMerged(c, i, r)
    ensures r[..i] == c[..i]
    ensures r[i].addr == c[i].addr && r[i].free == c[i].free && r[i].cap >= c[i].cap
    ensures BlockAfter(r[i]) == BlockAfter(c[i + |c| - |r|])
  {
    RunEnd(c, i, i + |c| - |r|);
  }

  /**
   * The merge loop of find_good_or_last and _free: block `i` absorbs its
   * successors one at a time for as long as try_merge_with_next fires. The
   * result is block `i` grown over the free contiguous run after it, nothing
   * else changed, and no further merge possible at `i`.
   */
  function MergeForward(c: seq<Block>, i: nat): (r: seq<Block>)
    requires i < |c|
    ensures i < |r| <= |c|
    ensures ForwardMerged(c, i, r)
    ensures r[..i] == c[..i]
    ensures r[i].addr == c[i].addr && r[i].free == c[i].free && r[i].cap >= c[i].cap
    ensures BlockAfter(r[i]) == BlockAfter(c[i + |c| - |r|])
    ensures Settled(r, i)
    ensures Settled(c, i) ==> r == c
    ensures Coalescing(c, r)
    decreases |c|
  {
    var s := TryMergeWithNext(c, i);
    if s.changed then
      var r := MergeForward(s.chain, i);
      ForwardMergedStep(c, i, r);
      ForwardMergedFacts(c, i, r);
      CoalescingTransitive(c, s.chain, r);
      r
    else
      ForwardMergedFacts(c, i, c);
      c
  }

  /** The merge loop is a series of single merges. */
  lemma {:induction false} MergeForwardMerges(c: seq<Block>, i: nat)
    requires i < |c|
    ensures Merges(c, MergeForward(c, i))
    decreases |c|
  {
    var s := TryMergeWithNext(c, i);
    if s.changed {
      MergeForwardMerges(s.chain, i);
      MergesStep(c, i, MergeForward(c, i));
    }
  }

  /** Memory outside the chain stays outside it when blocks merge. */
  lemma {:induction false} MergeForwardKeepsFresh(c: seq<Block>, i: nat, b: Block)
    requires i < |c| && Fresh(c, b)
    ensures Fresh(MergeForward(c, i), b)
    decreases |c|
  {
    var s := TryMergeWithNext(c, i);
    if s.changed {
      AbsorbKeepsFresh(c, i, b);
      MergeForwardKeepsFresh(s.chain, i, b);
    }
  }

  /** Some block at or after `from` is free and holds at least `sz` bytes. */
  ghost predicate HasFit(c: seq<Block>, from: nat, sz: nat)
  {
    exists k | from <= k < |c| :: c[k].free && c[k].cap >= sz
  }

  /** Merging never destroys a fit: an absorbed block's capacity lives on inside a bigger free block. */
  lemma {:induction false} MergeForwardKeepsFit(c: seq<Block>, i: nat, sz: nat)
    requires i < |c| && HasFit(c, i, sz)
    ensures HasFit(MergeForward(c, i), i, sz)
    decreases |c|
  {
    var s := TryMergeWithNext(c, i);
    if s.changed {
      var k :| i <= k < |c| && c[k].free && c[k].cap >= sz;
      if k <= i + 1 {
        assert s.chain[i].free && s.chain[i].cap >= sz;
      } else {
        assert s.chain[k - 1] == c[k];
      }
      MergeForwardKeepsFit(s.chain, i, sz);
    }
  }
}

=== FILE: overflow.dfy ===
/**
 * memalloc in size_t arithmetic (src/mem.c, lines 19-20, 30, 47-64 and
 * 257-277).
 *
 * The rest of the model sizes regions with unbounded integers. Here the
 * sizing of alloc_region wraps modulo 2^64 as size_t does: a request close
 * to SIZE_MAX makes size_from_capacity wrap to a small number, so the
 * region mapped is REGION_MIN_SIZE bytes. The retry after the growth then
 * reaches the end without a fit, and memalloc returns the `.block` of that
 * failed search anyway: a free block smaller than the request.
 */
module Overflow {
  import opened Layout
  import opened Blocks
  import opened Search
  import opened Regions
  import opened Alloc

  /** SIZE_MAX + 1: size_t arithmetic is modulo this. */
  const WORD: nat := 0x1_0000_0000_0000_0000

  /** size_from_capacity on size_t. */
  function SizeFromCapacity64(cap: nat): (r: nat)
    ensures r < WORD
    ensures cap + H < WORD ==> r == SizeFromCapacity(cap)
    ensures WORD <= cap + H < 2 * WORD ==> r + WORD == SizeFromCapacity(cap)
  {
    (cap + H) % WORD
  }

  /** round_pages on size_t: the product of the page size and the page count wraps. */
  function RoundPages64(mem: nat): (r: nat)
    ensures r < WORD
    ensures RoundPages(mem) < WORD ==> r == RoundPages(mem)
    ensures mem == 0 ==> r == 0
  {
    MultipleOfPage(PagesCount(mem));
    (PAGE_SIZE * PagesCount(mem)) % WORD
  }

  /** region_actual_size on size_t. */
  function RegionActualSize64(query: nat): (r: nat)
    ensures REGION_MIN_SIZE <= r
    ensures RoundPages(query) < WORD ==> r == RegionActualSize(query)
  {
    Max(RoundPages64(query), REGION_MIN_SIZE)
  }

  /** alloc_region with its sizing done on size_t. */
  function AllocRegion64(pref: nat, query: nat, os: MapResult): (r: Option<Region>)
    ensures r.None? <==> os.MapFailed?
    ensures r.Some? ==> REGION_MIN_SIZE <= r.value.size
    ensures SizeFromCapacity(query) + PAGE_SIZE <= WORD ==> r == AllocRegion(pref, query, os)
  {
    Place(pref, RegionActualSize64(SizeFromCapacity64(query)), os)
  }

  /** grow_heap with the region sized on size_t; the block returned is the free tail, as in GrowHeap. */
  function GrowHeap64(c: seq<Block>, last: Cursor, query: nat, os: MapResult): (g: Grown)
    requires last.At? ==> last.i + 1 == |c|
    requires H <= REGION_MIN_SIZE
    ensures g.block.Null? <==> last.Null? || os.MapFailed?
    ensures g.block.Null? ==> g.chain == c
    ensures g.block.At? ==> g.block.i + 1 == |g.chain| && g.chain[g.block.i].free
    ensures g.block.At? ==> Used(g.chain) == Used(c)
    ensures SizeFromCapacity(query) + PAGE_SIZE <= WORD ==> g == GrowHeap(c, last, query, os)
  {
    if last.Null? then
      Grown(c, Null)
    else
      match AllocRegion64(BlockAfter(c[last.i]), query, os)
      case None => Grown(c, Null)
      case Some(r) => Attach(c, last.i, r)
  }

  /**
   * memalloc as written, with size_t sizing: after a growth it returns the
   * block of the retry whatever the retry found, as line 273 does.
   */
  function Memalloc64(c: seq<Block>, start: Cursor, startLinksToItself: bool, query: nat, os: MapResult): (a: Allocation)
    requires start.At? ==> start.i < |c|
    requires H <= REGION_MIN_SIZE
    ensures a.block.At? ==> a.block.i < |a.chain|
    ensures start.Null? || startLinksToItself ==> a == Allocation(c, Null)
    ensures a.block.Null? ==> Used(a.chain) == Used(c)
  {
    var q := Max(query, BLOCK_MIN_CAPACITY);
    var t := TryMemallocExisting(c, start, startLinksToItself, q);
    match t.result
    case Found(i) => Allocation(t.chain, At(i))
    case Corrupted(_) => Allocation(t.chain, Null)
    case ReachedEnd(i) =>
      var g := GrowHeap64(t.chain, At(i), q, os);
      if g.block.Null? then
        Allocation(t.chain, Null)
      else
        var u := TryMemallocExisting(g.chain, g.block, false, q);
        Allocation(u.chain, u.result.BlockPtr())
  }

  /** Below the wrap, memalloc as written and the unbounded model agree exactly. */
  lemma Memalloc64AgreesBelowWrap(c: seq<Block>, start: Cursor, startLinksToItself: bool, query: nat, os: MapResult)
    requires start.At? ==> start.i < |c|
    requires H <= REGION_MIN_SIZE
    requires SizeFromCapacity(Max(query, BLOCK_MIN_CAPACITY)) + PAGE_SIZE <= WORD
    ensures Memalloc64(c, start, startLinksToItself, query, os) == Memalloc(c, start, startLinksToItself, query, os)
  {
    var q := Max(query, BLOCK_MIN_CAPACITY);
    var t := TryMemallocExisting(c, start, startLinksToItself, q);
    if t.result.ReachedEnd? {
      var g := GrowHeap(t.chain, At(t.result.i), q, os);
      assert GrowHeap64(t.chain, At(t.result.i), q, os) == g;
      if g.block.At? {
        var u := TryMemallocExisting(g.chain, g.block, false, q);
        assert Memalloc(c, start, startLinksToItself, query, os) == Allocation(u.chain, u.result.BlockPtr());
      }
    }
  }

  /**
   * A request of SIZE_MAX + 1 - H bytes on a heap whose only block is in use:
   * memalloc as written returns a block that is still free and far smaller
   * than the request, and _malloc hands out its contents as a success.
   */
  lemma HugeRequestReturnsFreeBlock(b: Block, os: MapResult)
    requires H <= REGION_MIN_SIZE && REGION_MIN_SIZE + BLOCK_MIN_CAPACITY < WORD
    requires !b.free && os != MapFailed
    ensures var a := Memalloc64([b], At(0), false, WORD - H, os);
      && a.block.At?
      && a.chain[a.block.i].free
      && a.chain[a.block.i].cap < WORD - H
  {
    var q := Max(WORD - H, BLOCK_MIN_CAPACITY);
    assert q == WORD - H;
    TryMemallocAtTail([b], 0, q);
    assert SizeFromCapacity64(q) == 0;
    assert PagesCount(0) == 0;
    var r := AllocRegion64(BlockAfter(b), q, os).value;
    assert r.size == REGION_MIN_SIZE;
    var g := GrowHeap64([b], At(0), q, os);
    assert g == Grown([b, RegionBlock(r)], At(1));
    TryMemallocAtTail(g.chain, 1, q);
  }
}

=== FILE: region.dfy ===
/**
 * Regions: the memory mapped for the heap (src/mem.c, lines 36-78).
 *
 * alloc_region first asks mmap for the preferred address without replacing
 * anything already mapped there, and if that fails lets the kernel choose
 * the address. The outcome of those two calls is an input of the model: it
 * either fails, or lands at the preferred address, or lands elsewhere.
 */
module Regions {
  import opened Layout
  import opened Blocks

  /** What the mmap calls of alloc_region return. */
  datatype MapResult =
    | MapFailed            // both calls returned MAP_FAILED
    | MapAtPreferred       // the MAP_FIXED_NOREPLACE call succeeded
    | MapElsewhere(at: nat) // the second call succeeded at `at`

  /**
   * struct region: where it was mapped, how big, and (`adjacent`, the
   * struct's `extends` field) whether it landed at the preferred address.
   */
  datatype Region = Region(addr: nat, size: nat, adjacent: bool)

  /** The region the mapping outcome `os` gives for a request of `size` bytes near `pref`. */
  function Place(pref: nat, size: nat, os: MapResult): (r: Option<Region>)
    ensures r.None? <==> os.MapFailed?
    ensures r.Some? ==> r.value.size == size
    ensures r.Some? ==> (r.value.adjacent <==> r.value.addr == pref)
    ensures os.MapAtPreferred? ==> r.Some? && r.value.addr == pref
    ensures os.MapElsewhere? ==> r.Some? && r.value.addr == os.at
  {
    match os
    case MapFailed => None
    case MapAtPreferred => Some(Region(pref, size, true))
    case MapElsewhere(at) => Some(Region(at, size, at == pref))
  }

  /**
   * alloc_region: a region big enough for a block of capacity `query` plus
   * its header, in whole pages and at least REGION_MIN_SIZE bytes, or none
   * when mapping fails.
   */
  function AllocRegion(pref: nat, query: nat, os: MapResult): (r: Option<Region>)
    ensures r.None? <==> os.MapFailed?
    ensures r.Some? ==> SizeFromCapacity(query) <= r.value.size
    ensures r.Some? ==> RoundPages(SizeFromCapacity(query)) <= r.value.size
    ensures r.Some? ==> REGION_MIN_SIZE <= r.value.size
    ensures r.Some? ==> r.value.size == REGION_MIN_SIZE
                        || (r.value.size % PAGE_SIZE == 0 && r.value.size < SizeFromCapacity(query) + PAGE_SIZE)
    ensures r.Some? ==> (r.value.adjacent <==> r.value.addr == pref)
    ensures os.MapAtPreferred? ==> r.Some? && r.value.addr == pref
  {
    Place(pref, RegionActualSize(SizeFromCapacity(query)), os)
  }

  /**
   * The mapped size is the least one allowed: no page multiple of at least
   * REGION_MIN_SIZE bytes that holds the block is smaller.
   */
  lemma AllocRegionIsSmallest(pref: nat, query: nat, os: MapResult, k: nat)
    requires os != MapFailed
    requires k % PAGE_SIZE == 0 && SizeFromCapacity(query) <= k && REGION_MIN_SIZE <= k
    ensures AllocRegion(pref, query, os).value.size <= k
  {
    RoundPagesIsLeast(SizeFromCapacity(query), k);
  }

  /** The single free block block_init writes over a whole region. */
  function RegionBlock(r: Region): (b: Block)
    requires H <= r.size
    ensures b.free && b.addr == r.addr
    ensures Total([b]) == r.size
    ensures Used([b]) == []
  {
    var b := BlockInit(r.addr, r.size);
    assert [b][1..] == [];
    assert Used([b]) == [] + Used([]);
    b
  }

  /** The block of a region mapped for `query` bytes can hold them. */
  lemma RegionBlockHolds(pref: nat, query: nat, os: MapResult)
    requires os != MapFailed
    ensures RegionBlock(AllocRegion(pref, query, os).value).cap >= query
  {
  }

  /**
   * heap_init: the heap is one free block over a region mapped near
   * `heapStart` for at least `initial` bytes; NULL when mapping fails.
   */
  function HeapInit(heapStart: nat, initial: nat, os: MapResult): (h: Option<seq<Block>>)
    ensures h.None? <==> os.MapFailed?
    ensures h.Some? ==> |h.value| == 1 && h.value[0].free && h.value[0].cap >= initial
    ensures h.Some? ==> Used(h.value) == [] && Disjoint(h.value)
    ensures os.MapAtPreferred? ==> h.Some? && h.value[0].addr == heapStart
  {
    match AllocRegion(heapStart, initial, os)
    case None => None
    case Some(r) => Some([RegionBlock(r)])
  }
}

=== FILE: scenarios.dfy ===
/**
 * The situations the repository's own tests set up (src/tests.c), and one
 * the allocator's forward-only coalescing leaves behind.
 */
module Scenarios {
  import opened Layout
  import opened Blocks
  import opened Merge
  import opened Split
  import opened Search
  import opened Regions
  import opened Alloc

  /**
   * A fresh heap of 4096 bytes serves a request for half of it from its own
   * block, even if no further mapping is possible, and freeing the pointer
   * leaves no block allocated (test_usual_success_alloc).
   */
  lemma UsualAllocAndFree(heapStart: nat, os: MapResult)
    requires os != MapFailed
    ensures var h := HeapInit(heapStart, 4096, os).value;
      var m := Malloc(h, false, 2048, MapFailed);
      && m.ptr.Some?
      && HeaderIndex(m.chain, BlockGetHeader(m.ptr.value)).Some?
      && Used(Free(m.chain, m.ptr)) == []
  {
    var h := HeapInit(heapStart, 4096, os).value;
    assert HasFit(h, 0, Max(2048, BLOCK_MIN_CAPACITY)) by {
      assert h[0].free && h[0].cap >= 2048;
    }
    MallocFreeRoundTrip(h, 2048, MapFailed);
  }

  /**
   * Freeing a used block whose free successor is contiguous makes one block
   * of the two (test_double_block_free: freeing 5, then 4, then 3).
   */
  lemma FreeAbsorbsFreeSuccessor(c: seq<Block>, k: nat)
    requires k + 1 < |c| && !c[k].free && c[k + 1].free && BlocksContinuous(c[k], c[k + 1])
    requires k + 2 < |c| ==> !c[k + 2].free
    ensures FreeAt(c, k) == c[..k] + [Block(c[k].addr, c[k].cap + SizeFromCapacity(c[k + 1].cap), true)] + c[k + 2..]
  {
    var f := SetFree(c, k, true);
    assert Mergeable(f[k], f[k + 1]);
    var a := Absorb(f, k);
    assert Settled(a, k);
    assert TryMergeWithNext(f, k).chain == a;
    assert FreeAt(c, k) == MergeForward(f, k) == a;
    assert f[..k] == c[..k] && f[k + 2..] == c[k + 2..];
  }

  /**
   * A heap whose one free block is too small grows by a region mapped right
   * after it: the first block absorbs the region and is the one handed out,
   * big enough for the request (test_grow_heap_and_merge).
   */
  lemma GrowthMergesIntoFirstBlock(b: Block, query: nat)
    requires b.free && b.cap < Max(query, BLOCK_MIN_CAPACITY)
    ensures var m := Malloc([b], false, query, MapAtPreferred);
      && m.ptr.Some? && m.ptr.value == Contents(b)
      && m.chain[0].addr == b.addr && !m.chain[0].free && m.chain[0].cap >= query
  {
    MergedGrowthServesFirstBlock(b, query);
    var a := Memalloc([b], At(0), false, query, MapAtPreferred);
    assert Malloc([b], false, query, MapAtPreferred) == Malloced(a.chain, Some(Contents(a.chain[0])));
  }

  lemma MergedGrowthServesFirstBlock(b: Block, query: nat)
    requires b.free && b.cap < Max(query, BLOCK_MIN_CAPACITY)
    ensures var a := Memalloc([b], At(0), false, query, MapAtPreferred);
      a.block == At(0) && a.chain[0].addr == b.addr
  {
    var q := Max(query, BLOCK_MIN_CAPACITY);
    TryMemallocAtTail([b], 0, q);
    var g := GrowHeap([b], At(0), q, MapAtPreferred);
    assert g.block == At(0) && |g.chain| == 1 && g.chain[0].addr == b.addr;
    TryMemallocAtTail(g.chain, 0, q);
  }

  /**
   * When the address after the heap is taken, the region lands elsewhere:
   * the first block stays free and untouched and the request is served from
   * the new region's block that follows it (test_grow_heap_no_merge).
   */
  lemma GrowthBehindBarrierKeepsFirstBlock(b: Block, query: nat, at: nat)
    requires b.free && b.cap < Max(query, BLOCK_MIN_CAPACITY)
    requires at != BlockAfter(b)
    ensures var m := Malloc([b], false, query, MapElsewhere(at));
      && |m.chain| >= 2 && m.chain[0] == b
      && !m.chain[1].free && m.chain[1].cap >= query
      && m.ptr.Some? && m.ptr.value == Contents(m.chain[1])
  {
    SeparateGrowthServesNewBlock(b, query, at);
  }

  lemma SeparateGrowthServesNewBlock(b: Block, query: nat, at: nat)
    requires b.free && b.cap < Max(query, BLOCK_MIN_CAPACITY)
    requires at != BlockAfter(b)
    ensures var a := Memalloc([b], At(0), false, query, MapElsewhere(at));
      a.block == At(1) && |a.chain| >= 2 && a.chain[0] == b
  {
    var q := Max(query, BLOCK_MIN_CAPACITY);
    TryMemallocAtTail([b], 0, q);
    var g := GrowHeap([b], At(0), q, MapElsewhere(at));
    assert g.block == At(1) && g.chain[0] == b;
    TryMemallocAtTail(g.chain, 1, q);
  }

  /**
   * Two free contiguous blocks, neither big enough alone but big enough
   * together: the search merges them as it passes and finds the merged block.
   */
  lemma SearchMergesFreePair(a: nat)
    ensures var c := [Block(a, 10, true), Block(a + H + 10, 10, true)];
      var s := FindGoodOrLast(c, At(0), false, 20 + H);
      s.result == Found(0) && s.chain == [Block(a, 20 + H, true)]
  {
    var c := [Block(a, 10, true), Block(a + H + 10, 10, true)];
    var m := [Block(a, 20 + H, true)];
    assert Mergeable(c[0], c[1]);
    assert TryMergeWithNext(c, 0).chain == m;
    assert MergeForward(c, 0) == MergeForward(m, 0) == m;
    assert Settle(c, 0) == m;
  }

  /** A later block that fits as it stands does not win over an earlier pair that fits once merged. */
  lemma SearchPrefersEarlierMergedPair()
    ensures var c := [Block(0, 10, true), Block(H + 10, 10, true), Block(4 * H + 100, 20 + H, true)];
      FindGoodOrLast(c, At(0), false, 20 + H).result == Found(0)
  {
    var c := [Block(0, 10, true), Block(H + 10, 10, true), Block(4 * H + 100, 20 + H, true)];
    var m := [Block(0, 20 + H, true), c[2]];
    assert Mergeable(c[0], c[1]);
    assert TryMergeWithNext(c, 0).chain == m;
    assert MergeForward(c, 0) == MergeForward(m, 0) == m;
    assert Settle(c, 0) == m;
  }

  /**
   * Two free blocks with a gap between them, each too small: the search does
   * not merge across the gap, so memalloc grows the heap by a whole region.
   */
  lemma GapPairMakesHeapGrow()
    ensures var c := [Block(0, 20, true), Block(2 * H + 100, 20, true)];
      var a := Memalloc(c, At(0), false, 24, MapAtPreferred);
      Total(a.chain) == Total(c) + RegionActualSize(SizeFromCapacity(24))
  {
    var c := [Block(0, 20, true), Block(2 * H + 100, 20, true)];
    assert !Mergeable(c[0], c[1]);
    SearchWithoutPairKeepsChain(c, 0, 24);
    assert !HasFit(c, 0, 24);
    MemallocGrowsAtEnd(c, At(0), false, 24, MapAtPreferred);
  }

  /**
   * A free block too small to split is handed out whole: memalloc only marks
   * it used, whatever the mapping would do.
   */
  lemma UnsplittableBlockHandedOutWhole(a: nat, os: MapResult)
    ensures var c := [Block(a, 34 + H, true)];
      Memalloc(c, At(0), false, 24, os) == Allocation([Block(a, 34 + H, false)], At(0))
  {
    var c := [Block(a, 34 + H, true)];
    assert Settle(c, 0) == c;
    assert FindGoodOrLast(c, At(0), false, 24) == Outcome(c, Found(0));
    MemallocServesFound(c, At(0), false, 24, os);
    assert SetFree(c, 0, false) == [Block(a, 34 + H, false)];
  }

  /**
   * Coalescing only runs forward, so a free block followed by a contiguous
   * block that is then freed leaves two free contiguous neighbours in place
   * until a later search reaches the first of them without finding an earlier fit.
   */
  lemma FreeLeavesBackwardPair()
    ensures var c := [Block(0, 32, true), Block(H + 32, 32, false)];
      var r := FreeAt(c, 1);
      |r| == 2 && Mergeable(r[0], r[1])
  {
    var c := [Block(0, 32, true), Block(H + 32, 32, false)];
    var r := FreeAt(c, 1);
    assert r[..1] == c[..1];
  }
}

=== FILE: search.dfy ===
/**
 * First-fit search with coalescing (src/mem.c, lines 166-197): walk the
 * chain from a start block; every free block first absorbs its free
 * contiguous successors and is then taken if it is big enough; the walk
 * stops at the last block otherwise.
 */
module Search {
  import opened Layout
  import opened Blocks
  import opened Merge

  /** The kinds of struct block_search_result, each with the block it carries. */
  datatype SearchResult =
    | Found(i: nat)            // BSR_FOUND_GOOD_BLOCK
    | ReachedEnd(i: nat)       // BSR_REACHED_END_NOT_FOUND, with the last block
    | Corrupted(start: Cursor) // BSR_CORRUPTED, with the start pointer it refused
  {
    /** The `.block` field of the source's result. */
    function BlockPtr(): Cursor
    {
      if Corrupted? then start else At(i)
    }
  }

  /** A search result together with the chain the search leaves. */
  datatype Outcome = Outcome(chain: seq<Block>, result: SearchResult)

  /** The block can serve a request of `sz` bytes: free and block_is_big_enough. */
  predicate Fits(b: Block, sz: nat)
  {
    b.free && b.cap >= sz
  }

  /** Every free block from `j` to `i` cannot absorb its successor: the walk merged all it could there. */
  ghost predicate SettledBetween(c: seq<Block>, j: nat, i: nat)
    requires j <= i < |c|
  {
    forall k {:trigger Settled(c, k)} | j <= k <= i :: c[k].free ==> Settled(c, k)
  }

  /** The blocks after `i` in `r` are the last blocks of `c`, unchanged. */
  ghost predicate TailKept(c: seq<Block>, r: seq<Block>, i: nat)
  {
    i < |r| <= |c| && r[i + 1..] == c[i + 1 + |c| - |r|..]
  }

  /**
   * One step of the walk at block `j`: a free block first absorbs its free
   * contiguous successors, one merge at a time until none is possible; a
   * used block is left as it is.
   */
  function Settle(c: seq<Block>, j: nat): (c1: seq<Block>)
    requires j < |c|
    ensures j < |c1| <= |c|
    ensures c1[..j] == c[..j]
    ensures c1[j].addr == c[j].addr && c1[j].free == c[j].free && c1[j].cap >= c[j].cap
    ensures c1[j].free ==> Settled(c1, j)
    ensures TailKept(c, c1, j)
    ensures Coalescing(c, c1)
    ensures Merges(c, c1)
  {
    if c[j].free then
      MergeForwardMerges(c, j);
      assert TailKept(c, MergeForward(c, j), j);
      MergeForward(c, j)
    else
      assert TailKept(c, c, j);
      c
  }

  /**
   * The walk of find_good_or_last from block `j` on. The result is the first
   * block at or after `j` that fits once merged, or the last block, which does not;
   * blocks before `j` are not touched and the chain changes only by merges
   * of free contiguous neighbours.
   */
  function Walk(c: seq<Block>, j: nat, sz: nat): (s: Outcome)
    requires j < |c|
    ensures j < |s.chain| <= |c|
    ensures s.chain[..j] == c[..j]
    ensures Coalescing(c, s.chain)
    ensures Merges(c, s.chain)
    ensures s.result.Found? || s.result.ReachedEnd?
    ensures j <= s.result.i < |s.chain|
    ensures s.result.Found? ==> Fits(s.chain[s.result.i], sz) && Settled(s.chain, s.result.i)
    ensures s.result.ReachedEnd? ==> s.result.i == |s.chain| - 1 && !Fits(s.chain[s.result.i], sz)
    ensures forall k | j <= k < s.result.i :: !Fits(s.chain[k], sz)
    ensures s.chain[j].addr == c[j].addr && s.chain[j].free == c[j].free
    ensures SettledBetween(s.chain, j, s.result.i)
    ensures s.result.Found? ==> TailKept(c, s.chain, s.result.i)
    decreases |c| - j, 1
  {
    var c1 := Settle(c, j);
    if Fits(c1[j], sz) then
      Outcome(c1, Found(j))
    else if j + 1 == |c1| then
      Outcome(c1, ReachedEnd(j))
    else
      WalkStep(c, j, sz);
      Walk(c1, j + 1, sz)
  }

  /** The walk from `j + 1` over the chain settled at `j`, when block `j` does not fit, is the walk from `j`. */
  lemma WalkStep(c: seq<Block>, j: nat, sz: nat)
    requires j < |c|
    requires j + 1 < |Settle(c, j)| && !Fits(Settle(c, j)[j], sz)
    ensures var s := Walk(Settle(c, j), j + 1, sz);
      && s.chain[..j] == c[..j]
      && Coalescing(c, s.chain) && Merges(c, s.chain)
      && (forall k | j <= k < s.result.i :: !Fits(s.chain[k], sz))
      && s.chain[j].addr == c[j].addr && s.chain[j].free == c[j].free
      && SettledBetween(s.chain, j, s.result.i)
      && (s.result.Found? ==> TailKept(c, s.chain, s.result.i))
    decreases |c| - j, 0
  {
    var c1 := Settle(c, j);
    var s := Walk(c1, j + 1, sz);
    WalkOn(c, c1, j, sz, s);
    WalkSettles(c, c1, j, s);
    MergedTwice(c, c1, s.chain);
  }

  /**
   * The block settled at `j` stays settled while the walk goes on: its
   * successor keeps its address and flag, and only blocks after it merge.
   */
  lemma WalkSettles(c: seq<Block>, c1: seq<Block>, j: nat, s: Outcome)
    requires j + 1 < |c1| <= |c|
    requires c1[j].addr == c[j].addr && c1[j].free == c[j].free
    requires c1[j].free ==> Settled(c1, j)
    requires TailKept(c, c1, j)
    requires j + 1 < |s.chain| <= |c1| && s.chain[..j + 1] == c1[..j + 1]
    requires s.chain[j + 1].addr == c1[j + 1].addr && s.chain[j + 1].free == c1[j + 1].free
    requires (s.result.Found? || s.result.ReachedEnd?) && j + 1 <= s.result.i < |s.chain|
    requires SettledBetween(s.chain, j + 1, s.result.i)
    requires s.result.Found? ==> TailKept(c1, s.chain, s.result.i)
    ensures s.chain[j].addr == c[j].addr && s.chain[j].free == c[j].free
    ensures SettledBetween(s.chain, j, s.result.i)
    ensures s.result.Found? ==> TailKept(c, s.chain, s.result.i)
  {
    assert s.chain[j] == s.chain[..j + 1][j] == c1[j];
    forall k | j <= k <= s.result.i && s.chain[k].free ensures Settled(s.chain, k) {
      if k == j {
        assert !Mergeable(c1[j], c1[j + 1]);
      }
    }
    if s.result.Found? {
      var i := s.result.i;
      var p := i + 1 + |c1| - |s.chain|;
      assert c1[p..] == c1[j + 1..][p - j - 1..];
      assert c[j + 1 + |c| - |c1|..][p - j - 1..] == c[p + |c| - |c1|..];
    }
  }

  /** What the walk from `j + 1` promises about the settled chain carries over to the walk from `j`. */
  lemma WalkOn(c: seq<Block>, c1: seq<Block>, j: nat, sz: nat, s: Outcome)
    requires j + 1 < |c1| <= |c| && c1[..j] == c[..j] && !Fits(c1[j], sz)
    requires j + 1 < |s.chain| <= |c1| && s.chain[..j + 1] == c1[..j + 1]
    requires (s.result.Found? || s.result.ReachedEnd?) && j + 1 <= s.result.i < |s.chain|
    requires forall k | j + 1 <= k < s.result.i :: !Fits(s.chain[k], sz)
    ensures s.chain[..j] == c[..j]
    ensures forall k | j <= k < s.result.i :: !Fits(s.chain[k], sz)
  {
    assert s.chain[..j] == s.chain[..j + 1][..j];
    assert s.chain[j] == s.chain[..j + 1][j] == c1[j];
  }

  /** Merging in two stretches is merging. */
  lemma MergedTwice(c: seq<Block>, c1: seq<Block>, r: seq<Block>)
    requires Coalescing(c, c1) && Merges(c, c1)
    requires Coalescing(c1, r) && Merges(c1, r)
    ensures Coalescing(c, r) && Merges(c, r)
  {
    CoalescingTransitive(c, c1, r);
    MergesTransitive(c, c1, r);
  }

  /** At the last block the walk stops: that block is taken if it fits, reported as the end if not. */
  lemma WalkAtTail(c: seq<Block>, j: nat, sz: nat)
    requires j + 1 == |c|
    ensures Walk(c, j, sz) == Outcome(c, if Fits(c[j], sz) then Found(j) else ReachedEnd(j))
  {
    assert Settle(c, j) == c;
  }

  /**
   * find_good_or_last: a NULL start, or a start whose `next` is itself, is
   * refused as corrupted and nothing changes; otherwise the walk runs from
   * the start block.
   */
  function FindGoodOrLast(c: seq<Block>, from: Cursor, startLinksToItself: bool, sz: nat): (s: Outcome)
    requires from.At? ==> from.i < |c|
    ensures s.result.Corrupted? <==> from.Null? || startLinksToItself
    ensures s.result.Corrupted? ==> s.chain == c && s.result.start == from
    ensures !s.result.Corrupted? ==> from.i <= s.result.i < |s.chain| <= |c|
    ensures !s.result.Corrupted? ==> s.chain[..from.i] == c[..from.i]
    ensures s.result.Found? ==> Fits(s.chain[s.result.i], sz) && Settled(s.chain, s.result.i)
    ensures s.result.ReachedEnd? ==> s.result.i == |s.chain| - 1 && !Fits(s.chain[s.result.i], sz)
    ensures !s.result.Corrupted? ==> forall k | from.i <= k < s.result.i :: !Fits(s.chain[k], sz)
    ensures !s.result.Corrupted? ==> SettledBetween(s.chain, from.i, s.result.i)
    ensures s.result.Found? ==> TailKept(c, s.chain, s.result.i)
    ensures from.At? && !startLinksToItself && HasFit(c, from.i, sz) ==> s.result.Found?
    ensures Coalescing(c, s.chain)
    ensures Merges(c, s.chain)
  {
    if from.Null? || startLinksToItself then
      Outcome(c, Corrupted(from))
    else
      WalkFindsExistingFit(c, from.i, sz);
      Walk(c, from.i, sz)
  }

  /**
   * Merging can only help: if some block at or after the start fits before
   * the walk, the walk finds a block (perhaps an earlier one, or a merged one).
   */
  lemma {:induction false} WalkFindsExistingFit(c: seq<Block>, j: nat, sz: nat)
    requires j < |c|
    ensures HasFit(c, j, sz) ==> Walk(c, j, sz).result.Found?
    decreases |c| - j
  {
    if HasFit(c, j, sz) {
      var c1 := Settle(c, j);
      if c[j].free {
        MergeForwardKeepsFit(c, j, sz);
      }
      assert HasFit(c1, j, sz);
      if !Fits(c1[j], sz) {
        assert HasFit(c1, j + 1, sz) by {
          var k :| j <= k < |c1| && c1[k].free && c1[k].cap >= sz;
          assert k != j;
        }
        WalkFindsExistingFit(c1, j + 1, sz);
      }
    }
  }

  /** The walk never lets a block outside the chain's memory overlap the chain. */
  lemma {:induction false} WalkKeepsFresh(c: seq<Block>, j: nat, sz: nat, b: Block)
    requires j < |c| && Fresh(c, b)
    ensures Fresh(Walk(c, j, sz).chain, b)
    decreases |c| - j
  {
    var c1 := Settle(c, j);
    if c[j].free {
      MergeForwardKeepsFresh(c, j, b);
    }
    if !Fits(c1[j], sz) && j + 1 < |c1| {
      WalkKeepsFresh(c1, j + 1, sz, b);
    }
  }

  /**
   * First fit over the chain as the walk left it: the search fails exactly
   * when no block from the start on fits.
   */
  lemma FindIsFirstFit(c: seq<Block>, from: nat, sz: nat)
    requires from < |c|
    ensures var s := FindGoodOrLast(c, At(from), false, sz);
      s.result.ReachedEnd? <==> !HasFit(s.chain, from, sz)
  {
    var s := FindGoodOrLast(c, At(from), false, sz);
    LastStopMeansNoFit(s.chain, from, s.result.i, sz);
  }

  /**
   * A search that passes over `from .. i - 1` and stops at block `i`,
   * either a fit or the last block, has found no fit from `from` on exactly
   * when it stops on the last block and that block does not fit either.
   */
  lemma LastStopMeansNoFit(c: seq<Block>, from: nat, i: nat, sz: nat)
    requires from <= i < |c|
    requires forall k | from <= k < i :: !Fits(c[k], sz)
    requires Fits(c[i], sz) || i == |c| - 1
    ensures (i == |c| - 1 && !Fits(c[i], sz)) <==> !HasFit(c, from, sz)
  {
    if i == |c| - 1 && !Fits(c[i], sz) {
      forall k | from <= k < |c| ensures !Fits(c[k], sz) {
        if k >= i {
          assert k == i;
        }
      }
    } else {
      assert Fits(c[i], sz);
    }
  }

  /**
   * A chain with no free block followed by a free block that begins where it
   * ends is searched as it stands: nothing is merged, and the search reaches
   * the end exactly when no block from the start on fits.
   */
  lemma SearchWithoutPairKeepsChain(c: seq<Block>, from: nat, sz: nat)
    requires from < |c|
    requires forall k: nat | k + 1 < |c| :: !Mergeable(c[k], c[k + 1])
    ensures var s := FindGoodOrLast(c, At(from), false, sz);
      && s.chain == c
      && (s.result.ReachedEnd? <==> !HasFit(c, from, sz))
  {
    var s := FindGoodOrLast(c, At(from), false, sz);
    MergesWithoutPairIsIdentity(c, s.chain);
    FindIsFirstFit(c, from, sz);
  }
}

=== FILE: split.dfy ===
/**
 * Splitting an oversized free block (src/mem.c, lines 80-116): the block
 * keeps `query` bytes of capacity and a new free header is written right
 * after them, taking over the rest of the block and the old `next`.
 */
module Split {
  import opened Layout
  import opened Blocks
  import opened Merge

  /** block_splittable: free, and the remainder can hold a header plus BLOCK_MIN_CAPACITY bytes. */
  predicate BlockSplittable(b: Block, query: nat)
  {
    b.free && query + H + BLOCK_MIN_CAPACITY <= b.cap
  }

  /** The chain in which block `i` is cut after `query` bytes of contents. */
  function Cut(c: seq<Block>, i: nat, query: nat): (r: seq<Block>)
    requires i < |c| && BlockSplittable(c[i], query)
    ensures |r| == |c| + 1
    ensures forall k | 0 <= k < i :: r[k] == c[k]
    ensures r[i] == c[i].(cap := query)
    ensures r[i + 1] == Block(c[i].addr + H + query, c[i].cap - query - H, true)
    ensures forall k | i + 1 < k < |r| :: r[k] == c[k - 1]
  {
    c[..i] + [c[i].(cap := query), BlockInit(Contents(c[i]) + query, c[i].cap - query)] + c[i + 1..]
  }

  /** Cutting a free block moves no memory and allocates nothing. */
  lemma CutKeepsMemory(c: seq<Block>, i: nat, query: nat)
    requires i < |c| && BlockSplittable(c[i], query)
    ensures SameMemory(c, Cut(c, i, query))
    ensures Used(Cut(c, i, query)) == Used(c)
  {
    var r := Cut(c, i, query);
    var pre, post := c[..i], c[i + 1..];
    assert c == pre + [c[i]] + post;
    assert r == pre + [r[i], r[i + 1]] + post;
    PairAndMergedAgree(r[i], r[i + 1], c[i]);
    AgreeInContext(pre, [r[i], r[i + 1]], [c[i]], post);
    CutKeepsDisjoint(c, i, query);
  }

  lemma CutKeepsDisjoint(c: seq<Block>, i: nat, query: nat)
    requires i < |c| && BlockSplittable(c[i], query)
    ensures Disjoint(c) ==> Disjoint(Cut(c, i, query))
  {
    var r := Cut(c, i, query);
    if Disjoint(c) {
      forall p, q | 0 <= p < q < |r| ensures Apart(r[p], r[q]) {
        if q < i {
          assert Apart(c[p], c[q]);
        } else if p < i && q <= i + 1 {
          assert Apart(c[p], c[i]);
          ApartFromPiece(c[i], r[q], c[p]);
        } else if p < i {
          assert Apart(c[p], c[q - 1]);
        } else if p <= i + 1 && q <= i + 1 {
          assert BlockAfter(r[p]) <= r[q].addr;
        } else if p <= i + 1 {
          assert Apart(c[i], c[q - 1]);
          ApartFromPiece(c[i], r[p], c[q - 1]);
        } else {
          assert Apart(c[p - 1], c[q - 1]);
        }
      }
    }
  }

  /** Memory outside the chain stays outside it when a block is cut. */
  lemma CutKeepsFresh(c: seq<Block>, i: nat, query: nat, b: Block)
    requires i < |c| && BlockSplittable(c[i], query)
    requires Fresh(c, b)
    ensures Fresh(Cut(c, i, query), b)
  {
    var r := Cut(c, i, query);
    forall k | 0 <= k < |r| ensures Apart(r[k], b) {
      if k < i {
        assert Apart(c[k], b);
      } else if k <= i + 1 {
        assert Apart(c[i], b);
        ApartFromPiece(c[i], r[k], b);
      } else {
        assert Apart(c[k - 1], b);
      }
    }
  }

  /**
   * split_if_too_big: a NULL block or a block that is not splittable is left
   * alone; otherwise the block keeps exactly `query` bytes and its free flag,
   * and a free block holding the remainder, minus one header, follows it at
   * block_after of the shortened block.
   */
  function SplitIfTooBig(c: seq<Block>, at: Cursor, query: nat): (s: Step)
    requires at.At? ==> at.i < |c|
    ensures s.changed <==> at.At? && BlockSplittable(c[at.i], query)
    ensures !s.changed ==> s.chain == c
    ensures s.changed ==> |s.chain| == |c| + 1
    ensures s.changed ==> forall k | 0 <= k < at.i :: s.chain[k] == c[k]
    ensures s.changed ==> s.chain[at.i] == c[at.i].(cap := query)
    ensures s.changed ==> Mergeable(s.chain[at.i], s.chain[at.i + 1])
    ensures s.changed ==> s.chain[at.i + 1] == Block(c[at.i].addr + H + query, c[at.i].cap - query - H, true)
    ensures s.changed ==> SizeFromCapacity(query) + SizeFromCapacity(s.chain[at.i + 1].cap) == SizeFromCapacity(c[at.i].cap)
    ensures s.changed ==> s.chain[at.i + 1].cap >= BLOCK_MIN_CAPACITY
    ensures s.changed ==> forall k | at.i + 1 < k < |s.chain| :: s.chain[k] == c[k - 1]
    ensures SameMemory(c, s.chain)
    ensures Used(s.chain) == Used(c)
  {
    if at.Null? || !BlockSplittable(c[at.i], query) then
      Step(c, false)
    else
      CutKeepsMemory(c, at.i, query);
      Step(Cut(c, at.i, query), true)
  }

  /** Merging the two halves of a split gives back the chain before the split. */
  lemma {:induction false} SplitThenMergeRestores(c: seq<Block>, i: nat, query: nat)
    requires i < |c| && BlockSplittable(c[i], query)
    ensures TryMergeWithNext(SplitIfTooBig(c, At(i), query).chain, i) == Step(c, true)
  {
    var r := SplitIfTooBig(c, At(i), query).chain;
    var s := TryMergeWithNext(r, i);
    SplitThenMergeBlockwise(c, i, query);
    assert s.chain == c;
  }

  lemma SplitThenMergeBlockwise(c: seq<Block>, i: nat, query: nat)
    requires i < |c| && BlockSplittable(c[i], query)
    ensures var s := TryMergeWithNext(SplitIfTooBig(c, At(i), query).chain, i);
      s.changed && |s.chain| == |c| && forall k | 0 <= k < |c| :: s.chain[k] == c[k]
  {
    var r := SplitIfTooBig(c, At(i), query).chain;
    var s := TryMergeWithNext(r, i);
    assert s.changed;
    forall k | 0 <= k < |c| ensures s.chain[k] == c[k] {
      if k > i {
        assert s.chain[k] == r[k + 1];
      }
    }
  }

  /**
   * Splitting a merged block where the merge joined gives back the chain
   * before the merge, provided the absorbed block was big enough to be a
   * split remainder.
   */
  lemma {:induction false} MergeThenSplitRestores(c: seq<Block>, i: nat)
    requires i + 1 < |c| && Mergeable(c[i], c[i + 1])
    requires c[i + 1].cap >= BLOCK_MIN_CAPACITY
    ensures SplitIfTooBig(TryMergeWithNext(c, i).chain, At(i), c[i].cap) == Step(c, true)
  {
    var s := SplitIfTooBig(TryMergeWithNext(c, i).chain, At(i), c[i].cap);
    MergeThenSplitBlockwise(c, i);
    assert s.chain == c;
  }

  lemma MergeThenSplitBlockwise(c: seq<Block>, i: nat)
    requires i + 1 < |c| && Mergeable(c[i], c[i + 1])
    requires c[i + 1].cap >= BLOCK_MIN_CAPACITY
    ensures var s := SplitIfTooBig(TryMergeWithNext(c, i).chain, At(i), c[i].cap);
      s.changed && |s.chain| == |c| && forall k | 0 <= k < |c| :: s.chain[k] == c[k]
  {
    var m := TryMergeWithNext(c, i).chain;
    assert m[i] == Block(c[i].addr, c[i].cap + SizeFromCapacity(c[i + 1].cap), true);
    var s := SplitIfTooBig(m, At(i), c[i].cap);
    assert s.changed;
    forall k | 0 <= k < |c| ensures s.chain[k] == c[k] {
      if k > i + 1 {
        assert s.chain[k] == m[k - 1];
      }
    }
  }
}
